=== FILE: README.md ===
# Logic of the react-native-playground demo screens, in Dafny

The repository is a set of small React Native demo screens. This project
lifts the pure logic out of six of them and states and proves what that
logic does:

- **Snake game** (`snake.dfy`). The state machine behind the game covers
  the tick that moves, grows or crashes the snake, the direction buttons,
  start/reset, the one-second clock and `formatTime`, and the random food
  placement. Ticks, button presses and clock seconds are events, and the
  random numbers are an explicit parameter. For the game as written, every
  reachable state has the snake on the grid and never overlapping itself,
  the food on the grid, and a score of 10 per cell grown. Two defects of
  the original are logged under "Findings". A second, corrected machine
  fixes them and also keeps the food off the snake and the head clear of
  its neck.
- **Grocery list and todo list** (`grocery_list.dfy`, `todo_list.dfy`). They
  cover add with trimming, toggle (a `map` followed by `sort`) and delete
  (a `filter`), plus the todo list's priority colours. JavaScript's sort has
  been required to be stable since ECMAScript 2019. So with these comparators
  the result of a toggle is fully determined: the groups of the flipped list,
  in key order, each in list order. `stable_sort.dfy` proves that
  characterisation for an insertion sort and proves that no other
  arrangement has it.
- **Infinite scroll** (`infinite_scroll.dfy`). It covers the page generator
  and the load/load-more transitions. The data loaded so far is always the
  first `page * itemsPerPage` items, with ids `item-0`, `item-1`, ... As
  written the list loads eleven pages where the screen describes ten; this
  is logged under "Findings", and a corrected load-more stops after the
  tenth page.
- **Top tab bar** (`top_tabs.dfy`). It covers the initial tab, the `find` of
  the active screen, tab presses and the highlight.
- **Gallery** (`gallery.dfy`). It covers the image list built by
  `Array.from`, including the `RangeError` for an impossible length.

Shared pieces:
- `text.dfy` models JavaScript's `trim`, `toString` of a non-negative integer
  and `padStart`. Each comes with its inverse (reading a digit string) or a
  characterisation.
- `seqs.dfy` holds `filter` and `map` on sequences.
- `wrappers.dfy` holds `Option`.

## Model

| member | source | states |
|---|---|---|
| Snake.DrawnCell | pocs/classic-snake/components/SnakeGame.tsx:38-41 | one random draw always yields a cell inside the 15 by 15 grid, and any in-grid outcome can be drawn as itself |
| Snake.GenerateFood | pocs/classic-snake/components/SnakeGame.tsx:35-44 | the food is the first drawn cell that is off the snake, so it is in the grid and not on the snake; the loop is still drawing (`None`) exactly when every draw so far hit the snake |
| Snake.GenerateFoodEndsIffFree | pocs/classic-snake/components/SnakeGame.tsx:35-44 | the drawing loop can stop exactly when the snake leaves some cell free, and every free cell can be the one chosen |
| Snake.ResetGame | pocs/classic-snake/components/SnakeGame.tsx:46-54 | a reset from any state gives the starting snake at (7,7), the food at (5,5) and the upward direction, score and time 0, not running, not over, and a state satisfying the game invariant |
| Snake.StartGame | pocs/classic-snake/components/SnakeGame.tsx:56-59 | start is the reset with the game running |
| Snake.Advance | pocs/classic-snake/components/SnakeGame.tsx:61-93 | a tick changes nothing when the game is over or paused; a head that leaves the grid or meets any cell of the snake, the tail included, ends the game with the snake unchanged; on the food the snake grows by exactly the new head, the score rises by 10, the tick yields a state exactly when the generator stops, and the new food is the cell it stops at, off the old snake, nothing else changing; otherwise the head moves, the length stays and `new[1..] == old[..len-1]` |
| Snake.MoveAsWritten | pocs/classic-snake/components/SnakeGame.tsx:84-86 | the tick as written: a newly placed food avoids only the snake as it was before the move |
| Snake.Move | pocs/classic-snake/components/SnakeGame.tsx:84-86 | the corrected tick: after a meal the new food is off the grown snake |
| Snake.TurnAsWritten | pocs/classic-snake/components/SnakeGame.tsx:117-126 | a direction press changes only the direction; it is ignored when the game is paused or over or when it reverses the current direction, and otherwise replaces the direction |
| Snake.Turn | pocs/classic-snake/components/SnakeGame.tsx:117-126 | the corrected press changes only the direction and is ignored while the game is paused or over; during play it takes every non-reversing direction that does not point the head at the cell behind it, never takes one that does, and differs from the press as written only in that neck case |
| Snake.Second | pocs/classic-snake/components/SnakeGame.tsx:102-109 | the clock adds one second only while the game runs and is not over, and changes nothing else |
| Snake.Pad2Reads | pocs/classic-snake/components/SnakeGame.tsx:114 | `n.toString().padStart(2, '0')` is a digit string that reads back as `n` |
| Snake.FormatTime | pocs/classic-snake/components/SnakeGame.tsx:111-115 | the clock text reads back (minutes, a colon, two digits of seconds below 60) as exactly the elapsed seconds, so different times show different clocks; below 100 minutes it is five characters |
| Snake.ClockOf | pocs/classic-snake/components/SnakeGame.tsx:112-114 | the two padded fields of a minutes/seconds split, joined by a colon, read back as the total seconds |
| Snake.MovePreservesInv | pocs/classic-snake/components/SnakeGame.tsx:61-93 | the corrected tick keeps the invariant: in-grid distinct cells, food on a free cell, score 10 per grown cell, game over implies paused, a unit direction, no reversal into the neck |
| Snake.TurnPreservesInv | pocs/classic-snake/components/SnakeGame.tsx:117-126 | the corrected direction press keeps the invariant |
| Snake.RunPreservesInv | pocs/classic-snake/components/SnakeGame.tsx:56-126 | in the corrected game, every series of ticks, presses, starts and clock seconds keeps the invariant |
| Snake.Reachable | pocs/classic-snake/components/SnakeGame.tsx:7-93 | in every state the corrected game reaches from the initial one, the snake is in the grid with distinct cells, the food is on a free cell, the score is `10 * (length - 1)` and the next tick cannot turn the head into the neck |
| Snake.MoveAsWrittenKeepsShape | pocs/classic-snake/components/SnakeGame.tsx:61-93 | the tick as written keeps the snake on the grid with distinct cells, the food on the grid, the score at 10 per grown cell, a finished game paused and the direction a unit step |
| Snake.TurnAsWrittenKeepsShape | pocs/classic-snake/components/SnakeGame.tsx:117-126 | a press as written keeps those same properties |
| Snake.RunAsWrittenKeepsShape | pocs/classic-snake/components/SnakeGame.tsx:56-126 | every series of events handled by the original's own tick and press keeps those properties |
| Snake.ReachableAsWritten | pocs/classic-snake/components/SnakeGame.tsx:7-93 | in every state the game as written reaches from the initial one, the snake is on the grid with distinct cells, the food is on the grid, the score is `10 * (length - 1)` and a finished game is not running |
| Snake.HungryIsReachable | pocs/classic-snake/components/SnakeGame.tsx:200-226 | Start, left, two ticks, up and a tick lead to the snake cell right below the food, heading up |
| Snake.HungryIsReachableAsWritten | pocs/classic-snake/components/SnakeGame.tsx:200-226 | the program as written reaches that same state by the same events, so both defects show from a state it can reach |
| Snake.FoodCanLandOnHead | pocs/classic-snake/components/SnakeGame.tsx:84-86 | as written, eating from that state can place the new food on the snake's new head |
| Snake.FoodNeverOnSnake | pocs/classic-snake/components/SnakeGame.tsx:84-86 | with the corrected tick the food is never on the snake after a move |
| Snake.QuickTurnsBiteNeck | pocs/classic-snake/components/SnakeGame.tsx:117-126 | as written, once the snake has two cells heading up, pressing left then down before the next tick leaves it heading down, and that tick ends the game against its own neck |
| Snake.QuickTurnsKeptSafe | pocs/classic-snake/components/SnakeGame.tsx:117-126 | with the corrected press the same sequence leaves the snake heading left, and the tick does not end the game |
| Text.TrimStart | pocs/grocery-list/components/TodoList.tsx:19 | the result is a suffix of the input, what is cut off is white space, and the result does not start with white space |
| Text.TrimEnd | pocs/grocery-list/components/TodoList.tsx:19 | the result is a prefix of the input, what is cut off is white space, and the result does not end with white space |
| Text.Trim | pocs/grocery-list/components/TodoList.tsx:19-21 | `trim` gives an infix with only white space around it, which neither starts nor ends with white space |
| Text.TrimEmptyIffBlank | pocs/grocery-list/components/GroceryList.tsx:17 | the trim is empty exactly when the input is all white space |
| Text.TrimIdempotent | pocs/grocery-list/components/TodoList.tsx:21 | trimming a trimmed text changes nothing |
| Text.DecimalString | pocs/infinite-scroll/components/InfiniteScrollList.tsx:28 | `toString` of a non-negative integer is a digit string with no leading zero, one character long exactly below 10 |
| Text.ValueOfDecimal | pocs/infinite-scroll/components/InfiniteScrollList.tsx:28 | the numeral reads back as the number |
| Text.DecimalInjective | pocs/infinite-scroll/components/InfiniteScrollList.tsx:28 | different numbers have different numerals |
| Text.FramedDecimalInjective | pocs/gallery/components/Gallery.tsx:17 | numerals inside a fixed prefix and suffix still tell numbers apart |
| Text.PadStart | pocs/classic-snake/components/SnakeGame.tsx:114 | `padStart` leaves a long enough string alone, otherwise makes it exactly the width, and keeps the string as its suffix |
| Text.PadStartFill | pocs/classic-snake/components/SnakeGame.tsx:114 | everything `padStart` adds in front is the fill character |
| Text.PadZerosValue | pocs/classic-snake/components/SnakeGame.tsx:114 | zero-padding a numeral keeps it a numeral of the same value |
| Seqs.Filter | pocs/grocery-list/components/TodoList.tsx:47 | `filter` never lengthens the list; what it keeps is stated by `Seqs.FilterCount` and `Seqs.FilterConcat` |
| Seqs.Map | pocs/grocery-list/components/TodoList.tsx:33 | `map` keeps the length; the elementwise content is stated by the `Flip` functions of the two list screens, and permutations by `Seqs.MapRespectsMultiset` |
| Seqs.FilterCount | pocs/grocery-list/components/TodoList.tsx:47 | `filter` keeps exactly the elements that pass, each as often as before, and no others |
| Seqs.FilterConcat | pocs/grocery-list/components/TodoList.tsx:47 | `filter` distributes over concatenation, so the survivors keep their order |
| Seqs.MapRespectsMultiset | pocs/grocery-list/components/TodoList.tsx:33-35 | mapping two permutations of each other gives permutations of each other |
| StableSort.Insert | pocs/grocery-list/components/TodoList.tsx:36-42 | an insertion adds exactly the one element |
| StableSort.InsertSorted | pocs/grocery-list/components/TodoList.tsx:36-42 | inserting into a sorted sequence keeps it sorted |
| StableSort.Sort | pocs/grocery-list/components/TodoList.tsx:36-42 | the sort's result is ordered by key and is a permutation of its input |
| StableSort.BucketInsert | pocs/grocery-list/components/TodoList.tsx:36-42 | an insertion puts the element at the front of its own key group and leaves the other groups alone |
| StableSort.SortKeepsBuckets | pocs/grocery-list/components/TodoList.tsx:36-42 | the sort keeps the order within each key group (stability) |
| StableSort.SortIsBuckets | pocs/grocery-list/components/TodoList.tsx:36-42 | the sorted sequence is the key groups laid end to end in key order |
| StableSort.SortUnique | pocs/grocery-list/components/TodoList.tsx:36-42 | any sorted arrangement that keeps every key group's order is the sort's result |
| StableSort.BucketIsFilter | pocs/grocery-list/components/TodoList.tsx:36-42 | a key group is the `filter` of the elements with that key |
| GroceryList.AddItem | pocs/grocery-list/components/GroceryList.tsx:16-26 | blank input changes nothing; otherwise exactly one unchecked item with the trimmed, non-empty text is appended, the rest is kept and the field is cleared |
| GroceryList.Flip | pocs/grocery-list/components/GroceryList.tsx:30-32 | the check box changes on exactly the items with the pressed id; ids, texts and positions stay |
| GroceryList.CompareIsKeyOrder | pocs/grocery-list/components/GroceryList.tsx:33-36 | the comparator agrees with the order of the key (unchecked 0, checked 1) |
| GroceryList.ToggleItem | pocs/grocery-list/components/GroceryList.tsx:28-38 | a toggle yields a permutation of the flipped list with every unchecked item before every checked one, each group in the flipped list's order |
| GroceryList.ToggleIsPartition | pocs/grocery-list/components/GroceryList.tsx:28-38 | a toggle is the unchecked items of the flipped list followed by its checked items |
| GroceryList.ToggleTwice | pocs/grocery-list/components/GroceryList.tsx:30-32 | toggling an id twice restores the same items with their original check boxes |
| GroceryList.DeleteItem | pocs/grocery-list/components/GroceryList.tsx:40-42 | delete removes every item with the id and keeps every other item as often as before |
| GroceryList.DeleteKeepsOrder | pocs/grocery-list/components/GroceryList.tsx:41 | delete works piecewise, so the remaining items keep their order |
| TodoList.AddItem | pocs/grocery-list/components/TodoList.tsx:18-29 | blank input changes nothing; otherwise exactly one unchecked item with the trimmed text and the selected priority is appended, and the field is cleared |
| TodoList.Flip | pocs/grocery-list/components/TodoList.tsx:33-35 | the check box changes on exactly the items with the pressed id; ids, texts and priorities stay |
| TodoList.CompareIsKeyOrder | pocs/grocery-list/components/TodoList.tsx:36-42 | the comparator agrees with the order of the key: unchecked before checked, then high, medium, low |
| TodoList.ToggleItem | pocs/grocery-list/components/TodoList.tsx:31-44 | a toggle yields a permutation of the flipped list with unchecked before checked and, within each, higher priority first; each group keeps its order |
| TodoList.ToggleIsGroups | pocs/grocery-list/components/TodoList.tsx:31-44 | a toggle is the six check-box/priority groups of the flipped list in comparator order, each in list order |
| TodoList.SortedIsSixBuckets | pocs/grocery-list/components/TodoList.tsx:36-42 | the sort by the todo key is its six key groups laid end to end |
| TodoList.GroupIsBucket | pocs/grocery-list/components/TodoList.tsx:36-42 | each check-box/priority group is the key group of its key |
| TodoList.ToggleTwice | pocs/grocery-list/components/TodoList.tsx:33-35 | toggling an id twice restores the same items with their original check boxes |
| TodoList.DeleteItem | pocs/grocery-list/components/TodoList.tsx:46-48 | delete removes every item with the id and keeps every other item as often as before |
| TodoList.DeleteKeepsOrder | pocs/grocery-list/components/TodoList.tsx:47 | delete works piecewise, so the remaining items keep their order |
| TodoList.PriorityColor | pocs/grocery-list/components/TodoList.tsx:50-57 | the default colour comes back exactly for names other than high, medium and low |
| TodoList.PriorityColorsDistinct | pocs/grocery-list/components/TodoList.tsx:50-57 | the three priorities get three different colours, none of them the default |
| InfiniteScroll.MockItem | pocs/infinite-scroll/components/InfiniteScrollList.tsx:27-31 | the item for position `i` has id `item-i` and title `Item i+1` |
| InfiniteScroll.Page | pocs/infinite-scroll/components/InfiniteScrollList.tsx:22-35 | page `p` has exactly `limit` items, item `k` being the one for position `p * limit + k` |
| InfiniteScroll.GenerateMockData | pocs/infinite-scroll/components/InfiniteScrollList.tsx:22-35 | the generator's loop produces exactly page `pageNum` |
| InfiniteScroll.PagesArePrefix | pocs/infinite-scroll/components/InfiniteScrollList.tsx:63 | appending page `n` to the first `n` pages gives the first `n + 1` pages |
| InfiniteScroll.IdsDistinct | pocs/infinite-scroll/components/InfiniteScrollList.tsx:28 | no two positions share an id |
| InfiniteScroll.LoadInitial | pocs/infinite-scroll/components/InfiniteScrollList.tsx:37-49 | the initial load sets the data to page 0 and the next page to 1, ends not loading and leaves `hasMore` alone |
| InfiniteScroll.LoadMoreAsWritten | pocs/infinite-scroll/components/InfiniteScrollList.tsx:51-70 | load-more as written does nothing while loading or when nothing more may be loaded; otherwise it appends page `page`, advances the page, ends not loading, and keeps `hasMore` exactly when the page loaded was below 10 |
| InfiniteScroll.LoadMore | pocs/infinite-scroll/components/InfiniteScrollList.tsx:51-70 | the corrected load-more does the same, except that it never fetches page 10 or later and keeps `hasMore` exactly when fewer than ten pages are in |
| InfiniteScroll.LoadMoreDiffersOnlyAtEnd | pocs/infinite-scroll/components/InfiniteScrollList.tsx:59-64 | the corrected and the written load-more agree except on the loads from the tenth page on, and the tenth page's load is where they part |
| InfiniteScroll.StepAsWrittenKeepsInv | pocs/infinite-scroll/components/InfiniteScrollList.tsx:37-70 | each load as written keeps the invariant: not loading, data is the first `page * limit` items, page at most 11, and at most 10 while more may be loaded |
| InfiniteScroll.RunAsWrittenKeepsInv | pocs/infinite-scroll/components/InfiniteScrollList.tsx:37-74 | any series of loads as written keeps that invariant |
| InfiniteScroll.ReachableAsWritten | pocs/infinite-scroll/components/InfiniteScrollList.tsx:16-74 | as written, from the empty list item `i` always has id `item-i`, the list is `page` full pages, ids are distinct, and at most 11 pages are ever loaded |
| InfiniteScroll.LoadsAsWritten | pocs/infinite-scroll/components/InfiniteScrollList.tsx:51-70 | as written, `k` loads in a row each add a page, and only the load of page 10 clears `hasMore` |
| InfiniteScroll.ScreenLoads165AsWritten | pocs/infinite-scroll/components/InfiniteScrollList.tsx:59-64 | as written, at the screen's 15 items per page, mounting and ten arrivals at the end load 11 pages, 165 items, and only then stop |
| InfiniteScroll.StepKeepsInv | pocs/infinite-scroll/components/InfiniteScrollList.tsx:37-70 | each corrected load keeps the invariant: not loading, data is the first `page * limit` items, page at most 10, and below 10 while more may be loaded |
| InfiniteScroll.RunKeepsInv | pocs/infinite-scroll/components/InfiniteScrollList.tsx:37-74 | any series of corrected loads keeps that invariant |
| InfiniteScroll.Reachable | pocs/infinite-scroll/components/InfiniteScrollList.tsx:16-74 | with the corrected load-more, item `i` always has id `item-i`, the list is `page` full pages, ids are distinct, and at most 10 pages and `10 * limit` items are ever loaded |
| InfiniteScroll.ScreenReachable | pocs/infinite-scroll/components/InfiniteScrollList.tsx:59-64 | at the screen's 15 items per page the corrected list never holds more than the 150 items the screen describes |
| InfiniteScroll.DefaultReachable | pocs/infinite-scroll/components/InfiniteScrollList.tsx:16 | at the default of ten items per page the corrected list never holds more than 100 items |
| InfiniteScroll.Loads | pocs/infinite-scroll/components/InfiniteScrollList.tsx:51-70 | `k` corrected loads in a row each add a page, and the load that brings in the tenth page clears `hasMore` |
| InfiniteScroll.ScreenStopsAt150 | pocs/infinite-scroll/components/InfiniteScrollList.tsx:59-64 | the corrected screen reaches its described end: mounting and nine arrivals at the end load ten pages, 150 items, and stop |
| TopTabs.InitialActive | pocs/grocery-list/components/TopTabNavigator.tsx:19 | the first active key is the first tab's key, or empty without tabs |
| TopTabs.ActiveComponent | pocs/grocery-list/components/TopTabNavigator.tsx:22 | no screen is shown exactly when no tab has the active key; otherwise the screen is that of a matching tab with no match before it |
| TopTabs.ActiveIsFirstMatch | pocs/grocery-list/components/TopTabNavigator.tsx:22 | the screen shown is that of the lowest index whose key is active |
| TopTabs.Press | pocs/grocery-list/components/TopTabNavigator.tsx:37 | pressing a tab makes its key the active one, which is the whole state |
| TopTabs.StartShowsFirst | pocs/grocery-list/components/TopTabNavigator.tsx:19-22 | with at least one tab, the first tab's screen is shown and the first tab is highlighted at the start |
| TopTabs.PressShows | pocs/grocery-list/components/TopTabNavigator.tsx:27-49 | with distinct keys, after a press the pressed tab's screen is shown and exactly that tab is highlighted |
| TopTabs.PressShowsFirstWithKey | pocs/grocery-list/components/TopTabNavigator.tsx:22 | with repeated keys, a press shows the screen of the first tab sharing the pressed key |
| Gallery.UrlId | pocs/gallery/components/Gallery.tsx:17 | reading a gallery url returns a number whose url is that url |
| Gallery.UrlRoundTrip | pocs/gallery/components/Gallery.tsx:17 | the url of a number reads back as that number |
| Gallery.UrlsDistinct | pocs/gallery/components/Gallery.tsx:17 | two images have the same url exactly when they have the same number |
| Gallery.ToLength | pocs/gallery/components/Gallery.tsx:15 | the array length taken from a count is 0 for a count of 0 or less and the count itself otherwise (for counts below 2^53) |
| Gallery.Images | pocs/gallery/components/Gallery.tsx:14-18 | the image list fails (`RangeError`) exactly for a count above 2^32 - 1; otherwise it has that many images, the default being 20, and image `i` has id `i + 1` and the url of `i + 1` |
| Gallery.ImagesDefaultAndEmpty | pocs/gallery/components/Gallery.tsx:14-15 | without a count there are 20 images; a count of 0 or less gives none |
| Gallery.ImagesOrdered | pocs/gallery/components/Gallery.tsx:15-18 | ids strictly increase along the list and no two images share a url |

## Left out

- Rendering, style sheets, cell colours and `renderGrid` are presentation only, and so are the `Dimensions` layout sizes, which are floating-point arithmetic.
- Timers and asynchronous work are not modelled. The 400 ms game interval, the one-second clock and the one-second fake fetch delay become atomic events (`Tick`, `ClockSecond`, `Mounted`, `EndReached`). React's batching of state updates is not modelled either. Because a load is atomic, the infinite list is never observed with `loading` true.
- `Math.random` becomes the `draws` parameter of the food generator. Each draw is an arbitrary pair of integers reduced into the grid. `None` means every given draw hit the snake. The original loop would keep drawing, forever if the snake fills the grid.
- `Date.now().toString()` ids become a parameter of `AddItem`. Nothing guarantees that ids are unique, so toggle and delete act on every item with the given id.
- The trivial text-field and priority-button setters (`setInputText`, `setSelectedPriority`) are not modelled. They replace a field of the screen state.
- The `catch` branches of the two loads are not modelled, because the code they guard cannot throw.
- The snake's Start button is shown only while the game is paused. `StartPressed` is accepted in every state, which only enlarges the set of reachable states the invariant is proved for.
- Numbers are exact integers, while JavaScript's are doubles. The model agrees with the original for integers below 2^53 and numerals below 10^21. Beyond those bounds `toString` switches to exponent notation, `ToLength` clamps to 2^53 - 1, and the generator's `i++` stops advancing. No screen reaches such values.
- `imageCount` is taken as an integer. Fractional, infinite or NaN counts are not modelled.
- `UserCard`, `NotesApp`, `mockUsers` and the test files hold no logic of these screens. The screens the tests exercise are not part of this model.
- Snake.Advance: a tick of a running game with an empty snake is treated as changing nothing. The original would compute a NaN head, add it and drop it again, with the same outcome. No reachable state has an empty snake.
- Seqs.Filter: its own contract only bounds the length. Its content is stated by `Seqs.FilterCount` and `Seqs.FilterConcat`.
- Seqs.Map: its own contract only gives the length. The element at each position is stated by `GroceryList.Flip` and `TodoList.Flip` for the map the screens use, and permutation by `Seqs.MapRespectsMultiset`.

## Findings

| source | as written | input that shows it | evidently intended | confidence | as-written member | corrected member |
|---|---|---|---|---|---|---|
| pocs/classic-snake/components/SnakeGame.tsx:84-86 | after a meal `generateFood` avoids the snake as it was before the move, so it may accept the cell the head has just entered | the snake at (5,6) heading up with food at (5,5); the tick eats it and the first draw is (5,5) | the new food is never on the snake | not executed | Snake.MoveAsWritten, Snake.FoodCanLandOnHead | Snake.Move, Snake.FoodNeverOnSnake |
| pocs/classic-snake/components/SnakeGame.tsx:117-126 | the reversal test compares a press with the direction already chosen for the next tick, not with the way the snake last moved, so two presses between ticks can reverse the snake | a two-cell snake heading up; press left, then down, before the next tick | the snake can never turn back into its own neck | not executed | Snake.TurnAsWritten, Snake.QuickTurnsBiteNeck | Snake.Turn, Snake.QuickTurnsKeptSafe |
| pocs/infinite-scroll/components/InfiniteScrollList.tsx:59-64 | the end test runs after page `page` has been fetched and still lets that page be appended, so pages 0 to 10 load: eleven pages, where the screen says loading stops after 10 pages, 150 items (`pocs/infinite-scroll/app/(tabs)/explore.tsx:46`) | the screen's 15 items per page (`pocs/infinite-scroll/app/(tabs)/index.tsx:15`); mount, then reach the end ten times: 165 items | the list stops after ten pages, 150 items at 15 per page | not executed | InfiniteScroll.LoadMoreAsWritten, InfiniteScroll.ScreenLoads165AsWritten | InfiniteScroll.LoadMore, InfiniteScroll.ScreenReachable |

=== FILE: gallery.dfy ===
/** The photo gallery: a grid of `imageCount` images numbered from 1, each
    with a fixed placeholder url that embeds its number. */
module Gallery {

  import opened Wrappers
  import Text

  datatype Image = Image(id: nat, url: string)

  /** The default of the `imageCount` property. */
  const DefaultImageCount: int := 20

  /** The largest length an array may have: 2^32 - 1. */
  const MaxArrayLength: int := 0xFFFF_FFFF

  const UrlPrefix := "https://picsum.photos/seed/gallery"
  const UrlSuffix := "/400/300"

  /** The url of the image numbered `id`. */
  function Url(id: nat): string {
    UrlPrefix + Text.DecimalString(id) + UrlSuffix
  }

  /** The number a gallery url carries, read back between the fixed prefix
      and suffix; `None` for a string of another shape. */
  function UrlId(url: string): (r: Option<nat>)
    ensures r.Some? ==> Url(r.value) == url
  {
    if |url| > |UrlPrefix| + |UrlSuffix|
      && url[..|UrlPrefix|] == UrlPrefix
      && url[|url| - |UrlSuffix|..] == UrlSuffix
    then
      var digits := url[|UrlPrefix|..|url| - |UrlSuffix|];
      if Text.AllDigits(digits) && Text.DecimalString(Text.Value(digits)) == digits then
        assert url == UrlPrefix + digits + UrlSuffix;
        Some(Text.Value(digits))
      else None
    else None
  }

  /** Reading a url back gives the number it was built from. */
  lemma UrlRoundTrip(id: nat)
    ensures UrlId(Url(id)) == Some(id)
  {
    var url := Url(id);
    var d := Text.DecimalString(id);
    assert url[..|UrlPrefix|] == UrlPrefix;
    assert url[|url| - |UrlSuffix|..] == UrlSuffix;
    assert url[|UrlPrefix|..|url| - |UrlSuffix|] == d;
    Text.ValueOfDecimal(id);
  }

  /** Different numbers get different urls. */
  lemma UrlsDistinct(a: nat, b: nat)
    ensures Url(a) == Url(b) <==> a == b
  {
    if Url(a) == Url(b) {
      Text.FramedDecimalInjective(UrlPrefix, a, b, UrlSuffix);
    }
  }

  /** The array length `Array.from` derives from a number: negative counts
      give an empty array. */
  function ToLength(n: int): (len: nat)
    ensures n <= 0 ==> len == 0
    ensures n > 0 ==> len == n
  {
    if n <= 0 then 0 else n
  }

  /** `Array.from({ length: imageCount }, ...)`: the images numbered 1 to
      `imageCount`, the default count when the property is absent, and
      `None` (a thrown `RangeError`) for a length no array can have. */
  function Images(imageCount: Option<int>): (r: Option<seq<Image>>)
    ensures var n := imageCount.GetOr(DefaultImageCount);
      && (r.None? <==> n > MaxArrayLength)
      && (r.Some? ==> |r.value| == ToLength(n))
    ensures r.Some? ==> forall i :: 0 <= i < |r.value| ==>
      r.value[i].id == i + 1 && r.value[i].url == Url(i + 1)
  {
    var len := ToLength(imageCount.GetOr(DefaultImageCount));
    if len > MaxArrayLength then None
    else Some(seq(len, i requires 0 <= i < len => Image(i + 1, Url(i + 1))))
  }

  /** Without the property there are twenty images; a count of zero or less
      gives none. */
  lemma ImagesDefaultAndEmpty(n: int)
    requires n <= 0
    ensures Images(None).Some? && |Images(None).value| == 20
    ensures Images(Some(n)) == Some([])
  {
  }

  /** The ids increase strictly along the grid and no two images share a
      url. */
  lemma ImagesOrdered(imageCount: Option<int>)
    ensures Images(imageCount).Some? ==>
      var images := Images(imageCount).value;
      && (forall i, j :: 0 <= i < j < |images| ==> images[i].id < images[j].id)
      && (forall i, j :: 0 <= i < j < |images| ==> images[i].url != images[j].url)
  {
    if Images(imageCount).Some? {
      var images := Images(imageCount).value;
      forall i, j | 0 <= i < j < |images| ensures images[i].url != images[j].url {
        UrlsDistinct(i + 1, j + 1);
      }
    }
  }
}

=== FILE: grocery_list.dfy ===
/** The grocery list screen: a list of items with a completion check box.
    Adding appends the trimmed input; toggling flips one item's check box
    and then moves the unchecked items in front of the checked ones;
    deleting drops the item. The item id, produced by the clock in the
    original program, is a parameter here. */
module GroceryList {

  import Text
  import Seqs
  import StableSort

  datatype GroceryItem = GroceryItem(id: string, text: string, completed: bool)

  /** The screen's state: the list and the text field's contents. */
  datatype GroceryState = GroceryState(items: seq<GroceryItem>, input: string)

  /* ---------- addItem ---------- */

  /** Pressing "Add" with `newId` as the fresh item's id: blank input is
      ignored, anything else is appended trimmed and unchecked, and the
      text field is cleared. */
  function AddItem(st: GroceryState, newId: string): (r: GroceryState)
    ensures Text.AllSpace(st.input) ==> r == st
    ensures !Text.AllSpace(st.input) ==>
      && |r.items| == |st.items| + 1
      && r.items[..|st.items|] == st.items
      && r.items[|st.items|] == GroceryItem(newId, Text.Trim(st.input), false)
      && r.items[|st.items|].text != []
      && r.input == []
  {
    var text := Text.Trim(st.input);
    Text.TrimEmptyIffBlank(st.input);
    if text == [] then st
    else GroceryState(st.items + [GroceryItem(newId, text, false)], "")
  }

  /* ---------- toggleItem ---------- */

  function Flipper(id: string): GroceryItem -> GroceryItem {
    (it: GroceryItem) => if it.id == id then it.(completed := !it.completed) else it
  }

  /** The `map` step of a toggle: the items with id `id` change their check
      box, nothing else changes. */
  function Flip(items: seq<GroceryItem>, id: string): (r: seq<GroceryItem>)
    ensures |r| == |items|
    ensures forall i :: 0 <= i < |items| ==>
      && r[i].id == items[i].id && r[i].text == items[i].text
      && (r[i].completed != items[i].completed <==> items[i].id == id)
  {
    Seqs.Map(Flipper(id), items)
  }

  /** The comparator handed to `sort`, as written: equal check boxes are a
      tie, otherwise the unchecked item goes first. */
  function Compare(a: GroceryItem, b: GroceryItem): int {
    if a.completed == b.completed then 0 else if a.completed then 1 else -1
  }

  /** The sort key the comparator orders by. */
  function Key(it: GroceryItem): nat {
    if it.completed then 1 else 0
  }

  /** The comparator's verdict is the comparison of the keys. */
  lemma CompareIsKeyOrder(a: GroceryItem, b: GroceryItem)
    ensures Compare(a, b) < 0 <==> Key(a) < Key(b)
    ensures Compare(a, b) == 0 <==> Key(a) == Key(b)
    ensures Compare(a, b) > 0 <==> Key(a) > Key(b)
  {
  }

  /** Pressing an item's check box: flip it, then stable-sort unchecked
      before checked. */
  function ToggleItem(items: seq<GroceryItem>, id: string): (r: seq<GroceryItem>)
    ensures multiset(r) == multiset(Flip(items, id))
    ensures forall i, j :: 0 <= i < j < |r| && r[i].completed ==> r[j].completed
    ensures forall k :: StableSort.Bucket(r, Key, k) == StableSort.Bucket(Flip(items, id), Key, k)
  {
    var flipped := Flip(items, id);
    StableSort.SortKeepsAllBuckets(flipped, Key);
    StableSort.Sort(flipped, Key)
  }

  predicate IsPending(it: GroceryItem) { !it.completed }
  predicate IsDone(it: GroceryItem) { it.completed }

  /** A toggle's result is the unchecked items of the flipped list followed
      by its checked items, each group in list order. */
  lemma ToggleIsPartition(items: seq<GroceryItem>, id: string)
    ensures ToggleItem(items, id)
         == Seqs.Filter(Flip(items, id), IsPending) + Seqs.Filter(Flip(items, id), IsDone)
  {
    var flipped := Flip(items, id);
    StableSort.SortIsBuckets(flipped, Key, 2);
    StableSort.BucketIsFilter(flipped, Key, 0, IsPending);
    StableSort.BucketIsFilter(flipped, Key, 1, IsDone);
  }

  /** Toggling the same id twice gives back the same items, each with its
      original check box; only their order may differ. */
  lemma ToggleTwice(items: seq<GroceryItem>, id: string)
    ensures multiset(ToggleItem(ToggleItem(items, id), id)) == multiset(items)
  {
    var once := ToggleItem(items, id);
    Seqs.MapRespectsMultiset(Flipper(id), once, Flip(items, id));
    assert Flip(Flip(items, id), id) == items;
  }

  /* ---------- deleteItem ---------- */

  function Keeps(id: string): GroceryItem -> bool {
    (it: GroceryItem) => it.id != id
  }

  /** Pressing an item's delete button: every item with that id goes, every
      other item stays. */
  function DeleteItem(items: seq<GroceryItem>, id: string): (r: seq<GroceryItem>)
    ensures forall it :: it in r <==> it in items && it.id != id
    ensures forall it :: multiset(r)[it] == if it.id == id then 0 else multiset(items)[it]
  {
    Seqs.FilterCounts(items, Keeps(id));
    Seqs.Filter(items, Keeps(id))
  }

  /** Deleting works piecewise, so the remaining items keep their order. */
  lemma DeleteKeepsOrder(a: seq<GroceryItem>, b: seq<GroceryItem>, id: string)
    ensures DeleteItem(a + b, id) == DeleteItem(a, id) + DeleteItem(b, id)
    ensures forall x :: DeleteItem([x], id) == if x.id == id then [] else [x]
  {
    Seqs.FilterConcat(a, b, Keeps(id));
  }
}

=== FILE: infinite_scroll.dfy ===
/** The infinite-scroll list: pages of generated items are appended as the
    user reaches the end of the list. As written, loading stops only after
    the page counter passes ten, so eleven pages load where the screen
    describes ten; the corrected list stops after the tenth page. The
    one-second delay of every load is not modelled: a load is one atomic
    step, so the list is never observed mid-load. */
module InfiniteScroll {

  import Text

  datatype ListItem = ListItem(id: string, title: string, description: string)

  /** The default of the `itemsPerPage` property. */
  const DefaultItemsPerPage: nat := 10

  /** The page size the screen passes to the list. */
  const ScreenItemsPerPage: nat := 15

  /** As written, a load that starts at this page or later is the last one. */
  const LastPage: nat := 10

  /** The number of pages the screen says it loads before it stops. */
  const PageCount: nat := 10

  /** The item the generator makes for position `i` of the whole list: ids
      count from 0, titles from 1. */
  function MockItem(i: nat): (it: ListItem)
    ensures it.id == "item-" + Text.DecimalString(i)
    ensures it.title == "Item " + Text.DecimalString(i + 1)
  {
    ListItem("item-" + Text.DecimalString(i), "Item " + Text.DecimalString(i + 1),
      "This is the description for item " + Text.DecimalString(i + 1) + ". Lorem ipsum dolor sit amet.")
  }

  /** The items of positions `0 .. n - 1`, in order. */
  function Prefix(n: nat): (r: seq<ListItem>)
    ensures |r| == n
    ensures forall i :: 0 <= i < n ==> r[i] == MockItem(i)
  {
    seq(n, i requires 0 <= i < n => MockItem(i))
  }

  /** Page `p` of `limit` items: positions `p * limit` up to, not including,
      `(p + 1) * limit`. */
  function Page(p: nat, limit: nat): (r: seq<ListItem>)
    ensures |r| == limit
    ensures forall k :: 0 <= k < limit ==> r[k] == MockItem(p * limit + k)
  {
    Items(p * limit, limit)
  }

  /** The `n` items from position `start` on. */
  function Items(start: nat, n: nat): (r: seq<ListItem>)
    ensures |r| == n
    ensures forall k :: 0 <= k < n ==> r[k] == MockItem(start + k)
  {
    seq(n, k requires 0 <= k < n => MockItem(start + k))
  }

  /** `generateMockData`: the loop pushes the items of positions
      `pageNum * limit` up to `pageNum * limit + limit - 1`. */
  method GenerateMockData(pageNum: nat, limit: nat) returns (items: seq<ListItem>)
    ensures items == Page(pageNum, limit)
  {
    items := [];
    var start := pageNum * limit;
    var i := start;
    while i < start + limit
      invariant start <= i <= start + limit
      invariant |items| == i - start
      invariant forall k :: 0 <= k < i - start ==> items[k] == MockItem(start + k)
    {
      items := items + [MockItem(i)];
      i := i + 1;
    }
  }

  /** The pages `0 .. n - 1` laid end to end are the first `n * limit`
      items. */
  lemma PagesArePrefix(n: nat, limit: nat)
    ensures Prefix(n * limit) + Page(n, limit) == Prefix((n + 1) * limit)
  {
    var a, b := Prefix(n * limit) + Page(n, limit), Prefix((n + 1) * limit);
    assert |a| == |b|;
    forall i | 0 <= i < |a| ensures a[i] == b[i] {
      if i >= n * limit {
        assert a[i] == Page(n, limit)[i - n * limit];
      }
    }
  }

  /** No two positions share an id. */
  lemma IdsDistinct(n: nat)
    ensures forall i, j :: 0 <= i < j < n ==> Prefix(n)[i].id != Prefix(n)[j].id
  {
    forall i, j | 0 <= i < j < n ensures Prefix(n)[i].id != Prefix(n)[j].id {
      if Prefix(n)[i].id == Prefix(n)[j].id {
        assert "item-" + Text.DecimalString(i) + "" == "item-" + Text.DecimalString(j) + "";
        Text.FramedDecimalInjective("item-", i, j, "");
      }
    }
  }

  /** The list's state: the items so far, the loading flag, the next page to
      load and whether more may be loaded. */
  datatype Feed = Feed(data: seq<ListItem>, loading: bool, page: nat, hasMore: bool)

  const Initial := Feed([], false, 0, true)

  /** `loadInitialData`: the list becomes page 0, the next page is 1. */
  function LoadInitial(f: Feed, limit: nat): (r: Feed)
    ensures r.data == Prefix(limit) && r.page == 1
    ensures !r.loading && r.hasMore == f.hasMore
  {
    assert Page(0, limit) == Prefix(limit);
    f.(data := Page(0, limit), page := 1, loading := false)
  }

  /** `loadMoreData` as written: nothing happens while a load is running or
      when no more may be loaded; otherwise page `page` is appended, the
      page counter moves on, and loading more stops once page 10 or later
      has been loaded. */
  function LoadMoreAsWritten(f: Feed, limit: nat): (r: Feed)
    ensures f.loading || !f.hasMore ==> r == f
    ensures !f.loading && f.hasMore ==>
      && r.data == f.data + Page(f.page, limit)
      && r.page == f.page + 1
      && !r.loading
      && (r.hasMore <==> f.page < LastPage)
  {
    if f.loading || !f.hasMore then f
    else
      f.(data := f.data + Page(f.page, limit),
         hasMore := if f.page >= LastPage then false else f.hasMore,
         page := f.page + 1,
         loading := false)
  }

  /** The corrected `loadMoreData`: a page is fetched only while fewer than
      ten have been loaded, and loading more stops once the tenth page is
      in. */
  function LoadMore(f: Feed, limit: nat): (r: Feed)
    ensures f.loading || !f.hasMore ==> r == f
    ensures !f.loading && f.hasMore && f.page < PageCount ==>
      && r.data == f.data + Page(f.page, limit)
      && r.page == f.page + 1
      && !r.loading
      && (r.hasMore <==> f.page + 1 < PageCount)
    ensures !f.loading && f.hasMore && f.page >= PageCount ==> r == f.(hasMore := false)
  {
    if f.loading || !f.hasMore then f
    else if f.page >= PageCount then f.(hasMore := false)
    else
      f.(data := f.data + Page(f.page, limit),
         hasMore := f.page + 1 < PageCount,
         page := f.page + 1,
         loading := false)
  }

  /** The two agree on every load but the ones from the tenth page on. */
  lemma LoadMoreDiffersOnlyAtEnd(f: Feed, limit: nat)
    ensures LoadMore(f, limit) != LoadMoreAsWritten(f, limit) ==>
      !f.loading && f.hasMore && f.page + 1 >= PageCount
    ensures !f.loading && f.hasMore && f.page + 1 == PageCount ==>
      LoadMore(f, limit).hasMore != LoadMoreAsWritten(f, limit).hasMore
  {
  }

  /** The mount effect that loads page 0, and the list reaching its end. */
  datatype Event = Mounted | EndReached

  /** `n` arrivals at the end of the list in a row. */
  function Ends(n: nat): (es: seq<Event>)
    ensures |es| == n
  {
    if n == 0 then [] else [EndReached] + Ends(n - 1)
  }

  /** At rest the list holds exactly the pages loaded so far. */
  predicate Loaded(f: Feed, limit: nat) {
    !f.loading && f.data == Prefix(f.page * limit)
  }

  /** A list that holds its pages has consecutive, distinct ids. */
  lemma LoadedIds(f: Feed, limit: nat)
    requires Loaded(f, limit)
    ensures |f.data| == f.page * limit
    ensures forall i :: 0 <= i < |f.data| ==> f.data[i].id == "item-" + Text.DecimalString(i)
    ensures forall i, j :: 0 <= i < j < |f.data| ==> f.data[i].id != f.data[j].id
  {
    IdsDistinct(f.page * limit);
  }

  /* ---------- the list as written ---------- */

  function StepAsWritten(f: Feed, e: Event, limit: nat): Feed {
    match e
    case Mounted => LoadInitial(f, limit)
    case EndReached => LoadMoreAsWritten(f, limit)
  }

  function RunAsWritten(f: Feed, es: seq<Event>, limit: nat): Feed
    decreases |es|
  {
    if es == [] then f else RunAsWritten(StepAsWritten(f, es[0], limit), es[1..], limit)
  }

  /** As written: the list holds its pages, and the page counter never
      passes 11. */
  predicate InvAsWritten(f: Feed, limit: nat) {
    && Loaded(f, limit)
    && f.page <= LastPage + 1
    && (f.hasMore ==> f.page <= LastPage)
  }

  lemma StepAsWrittenKeepsInv(f: Feed, e: Event, limit: nat)
    requires InvAsWritten(f, limit)
    ensures InvAsWritten(StepAsWritten(f, e, limit), limit)
  {
    if e == EndReached && f.hasMore {
      PagesArePrefix(f.page, limit);
    }
  }

  lemma {:induction false} RunAsWrittenKeepsInv(f: Feed, es: seq<Event>, limit: nat)
    requires InvAsWritten(f, limit)
    ensures InvAsWritten(RunAsWritten(f, es, limit), limit)
    decreases |es|
  {
    if es != [] {
      StepAsWrittenKeepsInv(f, es[0], limit);
      RunAsWrittenKeepsInv(StepAsWritten(f, es[0], limit), es[1..], limit);
    }
  }

  /** Whatever the sequence of loads, item `i` of the list has id `item-i`,
      the list is `page` full pages, the ids are distinct, and at most 11
      pages are ever loaded. */
  lemma ReachableAsWritten(es: seq<Event>, limit: nat)
    ensures var f := RunAsWritten(Initial, es, limit);
      && |f.data| == f.page * limit
      && (forall i :: 0 <= i < |f.data| ==> f.data[i].id == "item-" + Text.DecimalString(i))
      && (forall i, j :: 0 <= i < j < |f.data| ==> f.data[i].id != f.data[j].id)
      && f.page <= LastPage + 1
      && |f.data| <= (LastPage + 1) * limit
  {
    assert Prefix(0) == [];
    RunAsWrittenKeepsInv(Initial, es, limit);
    var f := RunAsWritten(Initial, es, limit);
    LoadedIds(f, limit);
    assert f.page * limit <= (LastPage + 1) * limit by {
      MulMonotone(f.page, LastPage + 1, limit);
    }
  }

  /** As written, `k` loads in a row from a list that may load more each
      append one page and move the counter on, and the last page that
      clears `hasMore` is page 10. */
  lemma {:induction false} LoadsAsWritten(f: Feed, k: nat, limit: nat)
    requires !f.loading && f.hasMore && f.page <= LastPage && f.page + k <= LastPage + 1
    ensures var r := RunAsWritten(f, Ends(k), limit);
      && |r.data| == |f.data| + k * limit
      && r.page == f.page + k
      && (r.hasMore <==> f.page + k <= LastPage)
    decreases k
  {
    if k > 0 {
      var f' := LoadMoreAsWritten(f, limit);
      assert Ends(k)[0] == EndReached && Ends(k)[1..] == Ends(k - 1);
      assert RunAsWritten(f, Ends(k), limit) == RunAsWritten(f', Ends(k - 1), limit);
      if k > 1 {
        LoadsAsWritten(f', k - 1, limit);
      }
      assert k * limit == limit + (k - 1) * limit;
    }
  }

  /** As written, on the screen's 15 items per page, mounting and then
      reaching the end ten times loads 11 pages: 165 items, not the 150 the
      screen describes. */
  lemma ScreenLoads165AsWritten()
    ensures var f := RunAsWritten(Initial, [Mounted] + Ends(10), ScreenItemsPerPage);
      |f.data| == 165 && f.page == 11 && !f.hasMore
  {
    var f1 := LoadInitial(Initial, ScreenItemsPerPage);
    assert ([Mounted] + Ends(10))[1..] == Ends(10);
    assert RunAsWritten(Initial, [Mounted] + Ends(10), ScreenItemsPerPage)
        == RunAsWritten(f1, Ends(10), ScreenItemsPerPage);
    LoadsAsWritten(f1, 10, ScreenItemsPerPage);
  }

  /* ---------- the corrected list ---------- */

  function Step(f: Feed, e: Event, limit: nat): Feed {
    match e
    case Mounted => LoadInitial(f, limit)
    case EndReached => LoadMore(f, limit)
  }

  function Run(f: Feed, es: seq<Event>, limit: nat): Feed
    decreases |es|
  {
    if es == [] then f else Run(Step(f, es[0], limit), es[1..], limit)
  }

  /** The list holds its pages, and at most ten of them. */
  predicate Inv(f: Feed, limit: nat) {
    && Loaded(f, limit)
    && f.page <= PageCount
    && (f.hasMore ==> f.page < PageCount)
  }

  lemma StepKeepsInv(f: Feed, e: Event, limit: nat)
    requires Inv(f, limit)
    ensures Inv(Step(f, e, limit), limit)
  {
    if e == EndReached && f.hasMore {
      PagesArePrefix(f.page, limit);
    }
  }

  lemma {:induction false} RunKeepsInv(f: Feed, es: seq<Event>, limit: nat)
    requires Inv(f, limit)
    ensures Inv(Run(f, es, limit), limit)
    decreases |es|
  {
    if es != [] {
      StepKeepsInv(f, es[0], limit);
      RunKeepsInv(Step(f, es[0], limit), es[1..], limit);
    }
  }

  /** Whatever the sequence of loads, item `i` of the list has id `item-i`,
      the list is `page` full pages, the ids are distinct, and at most 10
      pages are ever loaded. */
  lemma Reachable(es: seq<Event>, limit: nat)
    ensures var f := Run(Initial, es, limit);
      && |f.data| == f.page * limit
      && (forall i :: 0 <= i < |f.data| ==> f.data[i].id == "item-" + Text.DecimalString(i))
      && (forall i, j :: 0 <= i < j < |f.data| ==> f.data[i].id != f.data[j].id)
      && f.page <= PageCount
      && |f.data| <= PageCount * limit
  {
    assert Prefix(0) == [];
    RunKeepsInv(Initial, es, limit);
    var f := Run(Initial, es, limit);
    LoadedIds(f, limit);
    assert f.page * limit <= PageCount * limit by {
      MulMonotone(f.page, PageCount, limit);
    }
  }

  /** On the screen's 15 items per page at most 150 items are ever loaded. */
  lemma ScreenReachable(es: seq<Event>)
    ensures |Run(Initial, es, ScreenItemsPerPage).data| <= 150
  {
    Reachable(es, ScreenItemsPerPage);
  }

  /** With the default of ten items per page at most 100 items are ever
      loaded. */
  lemma DefaultReachable(es: seq<Event>)
    ensures |Run(Initial, es, DefaultItemsPerPage).data| <= 100
  {
    Reachable(es, DefaultItemsPerPage);
  }

  /** `k` corrected loads in a row from a list that may load more each
      append one page, and the one that brings in the tenth page clears
      `hasMore`. */
  lemma {:induction false} Loads(f: Feed, k: nat, limit: nat)
    requires !f.loading && f.hasMore && f.page < PageCount && f.page + k <= PageCount
    ensures var r := Run(f, Ends(k), limit);
      && |r.data| == |f.data| + k * limit
      && r.page == f.page + k
      && (r.hasMore <==> f.page + k < PageCount)
    decreases k
  {
    if k > 0 {
      var f' := LoadMore(f, limit);
      assert Ends(k)[0] == EndReached && Ends(k)[1..] == Ends(k - 1);
      assert Run(f, Ends(k), limit) == Run(f', Ends(k - 1), limit);
      if k > 1 {
        Loads(f', k - 1, limit);
      }
      assert k * limit == limit + (k - 1) * limit;
    }
  }

  /** The corrected screen does reach its promised end: mounting and then
      reaching the end nine times loads ten pages, 150 items, and stops. */
  lemma ScreenStopsAt150()
    ensures var f := Run(Initial, [Mounted] + Ends(9), ScreenItemsPerPage);
      |f.data| == 150 && f.page == PageCount && !f.hasMore
  {
    var f1 := LoadInitial(Initial, ScreenItemsPerPage);
    assert ([Mounted] + Ends(9))[1..] == Ends(9);
    assert Run(Initial, [Mounted] + Ends(9), ScreenItemsPerPage)
        == Run(f1, Ends(9), ScreenItemsPerPage);
    Loads(f1, 9, ScreenItemsPerPage);
  }

  lemma MulMonotone(a: nat, b: nat, c: nat)
    requires a <= b
    ensures a * c <= b * c
  {
  }
}

=== FILE: seqs.dfy ===
/** `Array.prototype.filter` and `Array.prototype.map` on immutable
    sequences, with the facts the list screens need about them. */
module Seqs {

  /** The elements of `s` that satisfy `keep`, in their original order. */
  function Filter<T>(s: seq<T>, keep: T -> bool): (r: seq<T>)
    ensures |r| <= |s|
  {
    if s == [] then [] else (if keep(s[0]) then [s[0]] else []) + Filter(s[1..], keep)
  }

  /** Exactly the elements that satisfy `keep` survive, each as often as it
      occurs in `s`; the others vanish. */
  lemma {:induction false} FilterCount<T>(s: seq<T>, keep: T -> bool, x: T)
    ensures multiset(Filter(s, keep))[x] == if keep(x) then multiset(s)[x] else 0
    ensures x in Filter(s, keep) <==> x in s && keep(x)
    decreases |s|
  {
    if s != [] {
      FilterCount(s[1..], keep, x);
      assert s == [s[0]] + s[1..];
    }
  }

  lemma FilterCounts<T>(s: seq<T>, keep: T -> bool)
    ensures forall x :: multiset(Filter(s, keep))[x] == if keep(x) then multiset(s)[x] else 0
    ensures forall x :: x in Filter(s, keep) <==> x in s && keep(x)
  {
    forall x ensures multiset(Filter(s, keep))[x] == (if keep(x) then multiset(s)[x] else 0)
      && (x in Filter(s, keep) <==> x in s && keep(x))
    {
      FilterCount(s, keep, x);
    }
  }

  /** Filtering distributes over concatenation, so the survivors keep their
      relative order. */
  lemma {:induction false} FilterConcat<T>(a: seq<T>, b: seq<T>, keep: T -> bool)
    ensures Filter(a + b, keep) == Filter(a, keep) + Filter(b, keep)
    decreases |a|
  {
    if a == [] {
      assert a + b == b;
    } else {
      var front := if keep(a[0]) then [a[0]] else [];
      assert (a + b)[0] == a[0];
      assert (a + b)[1..] == a[1..] + b;
      assert Filter(a + b, keep) == front + Filter(a[1..] + b, keep);
      FilterConcat(a[1..], b, keep);
      assert Filter(a, keep) == front + Filter(a[1..], keep);
    }
  }

  /** `s` with `f` applied to every element. */
  function Map<T, U>(f: T -> U, s: seq<T>): (r: seq<U>)
    ensures |r| == |s|
  {
    seq(|s|, i requires 0 <= i < |s| => f(s[i]))
  }

  /** Mapping respects permutation: if `a` and `b` hold the same elements
      with the same multiplicities, so do their images. */
  lemma {:induction false} MapRespectsMultiset<T, U>(f: T -> U, a: seq<T>, b: seq<T>)
    requires multiset(a) == multiset(b)
    ensures multiset(Map(f, a)) == multiset(Map(f, b))
    decreases |a|
  {
    if a == [] {
      assert |multiset(b)| == 0;
      assert b == [];
    } else {
      var x := a[0];
      assert x in multiset(b);
      var i :| 0 <= i < |b| && b[i] == x;
      var b' := RemoveAt(b, i);
      CancelCommon(x, multiset(a[1..]), multiset(b')) by {
        assert a == [x] + a[1..];
      }
      MapRespectsMultiset(f, a[1..], b');
      MapRemoveAt(f, b, i);
      assert Map(f, a) == [f(x)] + Map(f, a[1..]);
    }
  }

  lemma CancelCommon<T>(x: T, p: multiset<T>, q: multiset<T>)
    requires multiset{x} + p == multiset{x} + q
    ensures p == q
  {
    assert forall y :: p[y] == (multiset{x} + p)[y] - (if y == x then 1 else 0);
    assert forall y :: q[y] == (multiset{x} + q)[y] - (if y == x then 1 else 0);
  }

  function RemoveAt<T>(s: seq<T>, i: nat): (r: seq<T>)
    requires i < |s|
    ensures multiset(s) == multiset{s[i]} + multiset(r)
  {
    assert s == s[..i] + [s[i]] + s[i + 1..];
    s[..i] + s[i + 1..]
  }

  lemma MapRemoveAt<T, U>(f: T -> U, s: seq<T>, i: nat)
    requires i < |s|
    ensures multiset(Map(f, s)) == multiset(Map(f, RemoveAt(s, i))) + multiset{f(s[i])}
  {
    var m1, m2 := Map(f, s[..i]), Map(f, s[i + 1..]);
    assert Map(f, s) == m1 + [f(s[i])] + m2;
    assert Map(f, RemoveAt(s, i)) == m1 + m2;
  }
}

=== FILE: snake.dfy ===
/** The classic snake game: a snake of cells on a 15 by 15 grid moves one
    cell per tick in its direction; leaving the grid or running into itself
    ends the game; eating the food grows it by one cell, scores 10 points
    and places new food on a free cell. Ticks, the one-second clock and the
    random choice of the food cell become explicit events and parameters. */
module Snake {

  import opened Wrappers
  import Text
  import Seqs

  const GridSize: int := 15
  const PointsPerFood: int := 10

  /** A cell of the grid, or a direction vector. */
  datatype Pos = Pos(x: int, y: int)

  function Plus(p: Pos, d: Pos): Pos {
    Pos(p.x + d.x, p.y + d.y)
  }

  const InitialSnake: seq<Pos> := [Pos(7, 7)]
  const InitialFood: Pos := Pos(5, 5)
  const InitialDirection: Pos := Pos(0, -1)

  /** The game's state: the snake's cells from head to tail, the food, the
      direction of travel, the two flags, the score and the elapsed seconds. */
  datatype Game = Game(
    snake: seq<Pos>,
    food: Pos,
    direction: Pos,
    gameOver: bool,
    running: bool,
    score: int,
    time: nat)

  const Initial: Game := Game(InitialSnake, InitialFood, InitialDirection, false, false, 0, 0)

  predicate InGrid(p: Pos) {
    0 <= p.x < GridSize && 0 <= p.y < GridSize
  }

  predicate Distinct(s: seq<Pos>) {
    forall i, j :: 0 <= i < j < |s| ==> s[i] != s[j]
  }

  /* ---------- generateFood ---------- */

  /** The cell one draw of `generateFood` produces. The original draws each
      coordinate as `Math.floor(Math.random() * 15)`, some integer from 0 to
      14; the model takes the random outcome as an arbitrary pair of
      integers and reduces each into that range. */
  function DrawnCell(draw: Pos): (p: Pos)
    ensures InGrid(p)
    ensures InGrid(draw) ==> p == draw
  {
    Pos(draw.x % GridSize, draw.y % GridSize)
  }

  /** `generateFood`: the original keeps drawing random cells until one is
      off `snake`. Given the random outcomes `draws`, the food is the first
      drawn cell off the snake; `None` means every one of those draws hit the
      snake and the loop is still drawing. */
  function GenerateFood(snake: seq<Pos>, draws: seq<Pos>): (food: Option<Pos>)
    ensures food.Some? ==> InGrid(food.value) && food.value !in snake
    ensures food.Some? ==> exists i :: (0 <= i < |draws| && food.value == DrawnCell(draws[i])
      && forall j :: 0 <= j < i ==> DrawnCell(draws[j]) in snake)
    ensures food.None? <==> forall i :: 0 <= i < |draws| ==> DrawnCell(draws[i]) in snake
    decreases |draws|
  {
    if draws == [] then None
    else if DrawnCell(draws[0]) !in snake then Some(DrawnCell(draws[0]))
    else
      var rest := GenerateFood(snake, draws[1..]);
      assert rest.Some? ==> exists i :: (0 <= i < |draws[1..]| && rest.value == DrawnCell(draws[1..][i])
        && forall j :: 0 <= j < i ==> DrawnCell(draws[1..][j]) in snake);
      assert forall i :: 1 <= i < |draws| ==> draws[i] == draws[1..][i - 1];
      rest
  }

  /** The drawing stops for some outcome of the random draws exactly when a
      cell is free, and every free cell can be the one it stops at. */
  lemma {:induction false} GenerateFoodEndsIffFree(snake: seq<Pos>)
    ensures (exists draws :: GenerateFood(snake, draws).Some?)
        <==> exists p :: InGrid(p) && p !in snake
    ensures forall p :: InGrid(p) && p !in snake ==> GenerateFood(snake, [p]) == Some(p)
  {
    forall p | InGrid(p) && p !in snake ensures GenerateFood(snake, [p]) == Some(p) {
      assert DrawnCell(p) == p;
    }
    if exists draws :: GenerateFood(snake, draws).Some? {
      var draws :| GenerateFood(snake, draws).Some?;
      assert GenerateFood(snake, draws).value !in snake;
    }
  }

  /* ---------- resetGame / startGame ---------- */

  /** `resetGame`: back to the starting position, whatever the state. */
  function ResetGame(g: Game): (r: Game)
    ensures Inv(r)
    ensures r.snake == InitialSnake && r.food == InitialFood && r.direction == InitialDirection
    ensures r.score == 0 && r.time == 0
    ensures !r.running && !r.gameOver
  {
    Initial
  }

  /** `startGame`: a reset that leaves the game running. */
  function StartGame(g: Game): (r: Game)
    ensures Inv(r)
    ensures r == ResetGame(g).(running := true)
    ensures r.running && !r.gameOver && |r.snake| == 1 && r.score == 0
  {
    ResetGame(g).(running := true)
  }

  /* ---------- moveSnake ---------- */

  /** The snake that `generateFood` steers the new food clear of after a
      meal: the original uses the snake as it was before the move. */
  datatype FoodRule = AvoidOldSnake | AvoidNewSnake

  /** The state after the game ends. */
  function Crash(g: Game): Game {
    g.(gameOver := true, running := false)
  }

  /** One tick of `moveSnake`, with `draws` the random outcomes the food
      generator gets. The result is `None` only when the snake has just eaten
      and every one of those draws hit the snake `rule` names. */
  function Advance(g: Game, draws: seq<Pos>, rule: FoodRule): (o: Option<Game>)
    ensures g.gameOver || !g.running ==> o == Some(g)
    ensures !g.gameOver && g.running && |g.snake| > 0 ==>
      var head := Plus(g.snake[0], g.direction);
      && (!InGrid(head) || head in g.snake ==> o == Some(Crash(g)))
      && (InGrid(head) && head !in g.snake && head == g.food ==>
            var avoided := if rule == AvoidNewSnake then [head] + g.snake else g.snake;
            && (o.Some? <==> GenerateFood(avoided, draws).Some?)
            && (o.Some? ==> o.value.food == GenerateFood(avoided, draws).value))
      && (InGrid(head) && head !in g.snake && head == g.food ==>
            forall g' :: o == Some(g') ==>
              && g'.snake == [head] + g.snake
              && g'.score == g.score + PointsPerFood
              && InGrid(g'.food) && g'.food !in g.snake
              && (rule == AvoidNewSnake ==> g'.food !in g'.snake)
              && g' == g.(snake := g'.snake, score := g'.score, food := g'.food))
      && (InGrid(head) && head !in g.snake && head != g.food ==>
            exists g' :: o == Some(g')
              && |g'.snake| == |g.snake|
              && g'.snake[0] == head
              && g'.snake[1..] == g.snake[..|g.snake| - 1]
              && g' == g.(snake := g'.snake))
  {
    if g.gameOver || !g.running then Some(g)
    // An empty snake never occurs; the original would compute a NaN head,
    // add it and drop it again, leaving everything as it was.
    else if |g.snake| == 0 then Some(g)
    else
      var head := Plus(g.snake[0], g.direction);
      if !InGrid(head) then Some(Crash(g))
      else if head in g.snake then Some(Crash(g))
      else if head == g.food then
        var grown := [head] + g.snake;
        match GenerateFood(if rule == AvoidNewSnake then grown else g.snake, draws)
        case None => None
        case Some(f) => Some(g.(snake := grown, score := g.score + PointsPerFood, food := f))
      else
        Some(g.(snake := [head] + g.snake[..|g.snake| - 1]))
  }

  /** The tick as the original writes it. */
  function MoveAsWritten(g: Game, draws: seq<Pos>): (o: Option<Game>)
    ensures forall g' :: o == Some(g') && g'.food != g.food ==> InGrid(g'.food) && g'.food !in g.snake
  {
    Advance(g, draws, AvoidOldSnake)
  }

  /** The tick with food placed clear of the snake as it is after the move. */
  function Move(g: Game, draws: seq<Pos>): (o: Option<Game>)
    ensures forall g' :: o == Some(g') && g'.score != g.score ==> g'.food !in g'.snake
  {
    Advance(g, draws, AvoidNewSnake)
  }

  /* ---------- handleDirectionChange ---------- */

  function Opposite(d: Pos): Pos {
    Pos(-d.x, -d.y)
  }

  /** `handleDirectionChange` as written: ignored unless the game is on, and
      ignored when it reverses the current direction; otherwise the new
      direction replaces it. */
  function TurnAsWritten(g: Game, d: Pos): (r: Game)
    ensures r.direction == d || r.direction == g.direction
    ensures r == g.(direction := r.direction)
    ensures r.direction != g.direction ==> g.running && !g.gameOver && d != Opposite(g.direction)
    ensures g.running && !g.gameOver && d != Opposite(g.direction) ==> r.direction == d
  {
    if !g.running || g.gameOver then g
    else if d.x == -g.direction.x && d.y == -g.direction.y then g
    else g.(direction := d)
  }

  /** The direction change with the reversal test made against the cell
      behind the head, so no series of presses between two ticks can send
      the head into it. */
  function Turn(g: Game, d: Pos): (r: Game)
    ensures r == g.(direction := r.direction)
    ensures r.direction == d || r.direction == g.direction
    ensures r.direction == d && d != g.direction ==>
      |g.snake| < 2 || Plus(g.snake[0], d) != g.snake[1]
    ensures !g.running || g.gameOver ==> r == g
    ensures (&& g.running && !g.gameOver && d != Opposite(g.direction)
             && (|g.snake| < 2 || Plus(g.snake[0], d) != g.snake[1]))
      ==> r.direction == d
    ensures r != TurnAsWritten(g, d) ==> |g.snake| >= 2 && Plus(g.snake[0], d) == g.snake[1]
  {
    var r := TurnAsWritten(g, d);
    if |g.snake| >= 2 && Plus(g.snake[0], r.direction) == g.snake[1] then g else r
  }

  /* ---------- the clock and formatTime ---------- */

  /** One tick of the one-second timer, which runs only during play. */
  function Second(g: Game): (r: Game)
    ensures r.time == if g.running && !g.gameOver then g.time + 1 else g.time
    ensures r == g.(time := r.time)
  {
    if g.running && !g.gameOver then g.(time := g.time + 1) else g
  }

  /** `n.toString().padStart(2, '0')`. */
  function Pad2(n: nat): string {
    Text.PadStart(Text.DecimalString(n), 2, '0')
  }

  lemma Pad2Reads(n: nat)
    ensures Text.AllDigits(Pad2(n)) && Text.Value(Pad2(n)) == n
  {
    Text.PadZerosValue(Text.DecimalString(n), 2);
    Text.ValueOfDecimal(n);
  }

  lemma Pad2Width(n: nat)
    ensures |Pad2(n)| >= 2
    ensures n < 100 ==> |Pad2(n)| == 2
  {
    if 10 <= n < 100 {
      assert Text.DecimalString(n) == Text.DecimalString(n / 10) + [Text.DigitChar(n % 10)];
    }
  }

  /** How a player reads the clock: minutes, a colon and two digits of
      seconds below sixty, giving the elapsed seconds; `None` for a string
      that is not such a clock. */
  function ReadClock(r: string): (t: Option<nat>)
    ensures t.Some? ==> |r| >= 5 && r[|r| - 3] == ':'
  {
    if |r| >= 5 && r[|r| - 3] == ':' then ReadMinutesSeconds(r[..|r| - 3], r[|r| - 2..])
    else None
  }

  /** The seconds shown by a minutes field and a seconds field. */
  function ReadMinutesSeconds(mm: string, ss: string): Option<nat> {
    if Text.AllDigits(mm) && Text.AllDigits(ss) && Text.Value(ss) < 60
    then Some(Text.Value(mm) * 60 + Text.Value(ss))
    else None
  }

  /** `formatTime`: the minutes, padded to two digits, a colon, and the
      seconds, padded to two digits. The clock reads back as the elapsed
      time, so different times show different clocks. */
  function FormatTime(seconds: nat): (r: string)
    ensures ReadClock(r) == Some(seconds)
    ensures seconds < 6000 ==> |r| == 5
  {
    MinutesAndSeconds(seconds);
    ClockOf(seconds / 60, seconds % 60, seconds);
    Pad2(seconds / 60) + ":" + Pad2(seconds % 60)
  }

  lemma ClockOf(mins: nat, secs: nat, seconds: nat)
    requires secs < 60 && mins * 60 + secs == seconds
    ensures ReadClock(Pad2(mins) + ":" + Pad2(secs)) == Some(seconds)
    ensures mins < 100 ==> |Pad2(mins) + ":" + Pad2(secs)| == 5
  {
    Pad2Reads(mins);
    Pad2Reads(secs);
    FieldsRead(Pad2(mins), Pad2(secs), seconds);
    Pad2Width(mins);
    Pad2Width(secs);
    ReadJoined(Pad2(mins), Pad2(secs), seconds);
  }

  lemma FieldsRead(mm: string, ss: string, seconds: nat)
    requires Text.AllDigits(mm) && Text.AllDigits(ss)
    requires Text.Value(ss) < 60 && Text.Value(mm) * 60 + Text.Value(ss) == seconds
    ensures ReadMinutesSeconds(mm, ss) == Some(seconds)
  {
  }

  /** Two digit strings joined by a colon read as minutes and seconds. */
  lemma ReadJoined(mm: string, ss: string, seconds: nat)
    requires |mm| >= 2 && |ss| == 2 && ReadMinutesSeconds(mm, ss) == Some(seconds)
    ensures ReadClock(mm + ":" + ss) == Some(seconds)
  {
    var r := mm + ":" + ss;
    ColonSplit(mm, ss, r);
    assert ReadClock(r) == ReadMinutesSeconds(r[..|r| - 3], r[|r| - 2..]);
  }

  lemma ColonSplit(mm: string, ss: string, r: string)
    requires |mm| >= 2 && |ss| == 2 && r == mm + ":" + ss
    ensures |r| >= 5 && r[|r| - 3] == ':'
    ensures r[..|r| - 3] == mm && r[|r| - 2..] == ss
  {
    assert r[..|r| - 3] == mm;
    assert r[|r| - 2..] == ss;
  }

  lemma MinutesAndSeconds(seconds: nat)
    ensures seconds / 60 * 60 + seconds % 60 == seconds && seconds % 60 < 60
    ensures seconds < 6000 ==> seconds / 60 < 100
  {
  }

  /* ---------- the game as a state machine ---------- */

  /** The four direction buttons. */
  datatype Button = Up | Down | Left | Right

  function Heading(b: Button): Pos {
    match b
    case Up => Pos(0, -1)
    case Down => Pos(0, 1)
    case Left => Pos(-1, 0)
    case Right => Pos(1, 0)
  }

  predicate IsHeading(d: Pos) {
    d == Pos(0, -1) || d == Pos(0, 1) || d == Pos(-1, 0) || d == Pos(1, 0)
  }

  datatype Event = Tick(draws: seq<Pos>) | Press(button: Button) | StartPressed | ClockSecond

  /** One event handled by the corrected tick and press. */
  function Step(g: Game, e: Event): Option<Game> {
    match e
    case Tick(draws) => Move(g, draws)
    case Press(b) => Some(Turn(g, Heading(b)))
    case StartPressed => Some(StartGame(g))
    case ClockSecond => Some(Second(g))
  }

  /** The state after a series of events in the corrected game, or `None`
      once the food generator is still drawing. */
  function Run(g: Game, es: seq<Event>): Option<Game>
    decreases |es|
  {
    if es == [] then Some(g)
    else
      match Step(g, es[0])
      case None => None
      case Some(g') => Run(g', es[1..])
  }

  /** The head's next cell is not the one right behind it. */
  predicate NeckSafe(g: Game) {
    |g.snake| >= 2 ==> Plus(g.snake[0], g.direction) != g.snake[1]
  }

  /** What holds in every state the game can reach. */
  predicate Inv(g: Game) {
    && WellFormed(g)
    && g.food !in g.snake
    && NeckSafe(g)
  }

  /** What holds in every state the game as written can reach: the
      invariant without the food being off the snake and without the
      neck being safe, the two properties its defects break. */
  predicate WellFormed(g: Game) {
    && |g.snake| >= 1
    && (forall i :: 0 <= i < |g.snake| ==> InGrid(g.snake[i]))
    && Distinct(g.snake)
    && InGrid(g.food)
    && g.score == PointsPerFood * (|g.snake| - 1)
    && (g.gameOver ==> !g.running)
    && IsHeading(g.direction)
  }

  lemma MovePreservesInv(g: Game, draws: seq<Pos>)
    requires Inv(g)
    ensures forall g' :: Move(g, draws) == Some(g') ==> Inv(g')
  {
    if !g.gameOver && g.running {
      var head := Plus(g.snake[0], g.direction);
      if InGrid(head) && head !in g.snake {
        if head == g.food {
          GrowKeepsInv(g, head, draws);
        } else {
          SlideKeepsInv(g, head);
        }
      }
    }
  }

  lemma GrowKeepsInv(g: Game, head: Pos, draws: seq<Pos>)
    requires Inv(g) && !g.gameOver && g.running
    requires head == Plus(g.snake[0], g.direction) && InGrid(head) && head !in g.snake && head == g.food
    ensures forall g' :: Move(g, draws) == Some(g') ==> Inv(g')
  {
    var grown := [head] + g.snake;
    assert forall i :: 1 <= i < |grown| ==> grown[i] == g.snake[i - 1];
    assert Distinct(grown);
  }

  lemma SlideKeepsInv(g: Game, head: Pos)
    requires Inv(g) && !g.gameOver && g.running
    requires head == Plus(g.snake[0], g.direction) && InGrid(head) && head !in g.snake && head != g.food
    ensures forall g' :: Move(g, []) == Some(g') ==> Inv(g')
    ensures forall draws :: Move(g, draws) == Move(g, [])
  {
    var moved := [head] + g.snake[..|g.snake| - 1];
    assert forall i :: 1 <= i < |moved| ==> moved[i] == g.snake[i - 1];
    assert g.food !in moved;
    assert Distinct(moved);
  }

  lemma TurnPreservesInv(g: Game, b: Button)
    requires Inv(g)
    ensures Inv(Turn(g, Heading(b)))
  {
  }

  lemma {:induction false} RunPreservesInv(g: Game, es: seq<Event>)
    requires Inv(g)
    ensures forall g' :: Run(g, es) == Some(g') ==> Inv(g')
    decreases |es|
  {
    if es != [] {
      match es[0]
      case Tick(draws) =>
        MovePreservesInv(g, draws);
        if Move(g, draws).Some? {
          RunPreservesInv(Move(g, draws).value, es[1..]);
        }
      case Press(b) =>
        TurnPreservesInv(g, b);
        RunPreservesInv(Turn(g, Heading(b)), es[1..]);
      case StartPressed =>
        RunPreservesInv(StartGame(g), es[1..]);
      case ClockSecond =>
        RunPreservesInv(Second(g), es[1..]);
    }
  }

  /** In every reachable state the snake lies on the grid without
      overlapping itself, the food is on a free cell, the score is 10 per
      cell grown, and the next tick cannot reverse the snake into itself. */
  lemma Reachable(es: seq<Event>)
    ensures forall g :: Run(Initial, es) == Some(g) ==>
      && (forall i :: 0 <= i < |g.snake| ==> InGrid(g.snake[i]))
      && Distinct(g.snake)
      && InGrid(g.food) && g.food !in g.snake
      && g.score == PointsPerFood * (|g.snake| - 1)
      && (|g.snake| >= 2 ==> Plus(g.snake[0], g.direction) != g.snake[1])
  {
    RunPreservesInv(Initial, es);
  }

  /* ---------- the game as written ---------- */

  /** One event handled by the original's own tick and press. */
  function StepAsWritten(g: Game, e: Event): Option<Game> {
    match e
    case Tick(draws) => MoveAsWritten(g, draws)
    case Press(b) => Some(TurnAsWritten(g, Heading(b)))
    case StartPressed => Some(StartGame(g))
    case ClockSecond => Some(Second(g))
  }

  function RunAsWritten(g: Game, es: seq<Event>): Option<Game>
    decreases |es|
  {
    if es == [] then Some(g)
    else
      match StepAsWritten(g, es[0])
      case None => None
      case Some(g') => RunAsWritten(g', es[1..])
  }

  lemma MoveAsWrittenKeepsShape(g: Game, draws: seq<Pos>)
    requires WellFormed(g)
    ensures forall g' :: MoveAsWritten(g, draws) == Some(g') ==> WellFormed(g')
  {
    if !g.gameOver && g.running {
      var head := Plus(g.snake[0], g.direction);
      if InGrid(head) && head !in g.snake {
        if head == g.food {
          var grown := [head] + g.snake;
          assert forall i :: 1 <= i < |grown| ==> grown[i] == g.snake[i - 1];
          assert Distinct(grown);
        } else {
          var moved := [head] + g.snake[..|g.snake| - 1];
          assert forall i :: 1 <= i < |moved| ==> moved[i] == g.snake[i - 1];
          assert Distinct(moved);
        }
      }
    }
  }

  lemma TurnAsWrittenKeepsShape(g: Game, b: Button)
    requires WellFormed(g)
    ensures WellFormed(TurnAsWritten(g, Heading(b)))
  {
  }

  lemma {:induction false} RunAsWrittenKeepsShape(g: Game, es: seq<Event>)
    requires WellFormed(g)
    ensures forall g' :: RunAsWritten(g, es) == Some(g') ==> WellFormed(g')
    decreases |es|
  {
    if es != [] {
      match es[0]
      case Tick(draws) =>
        MoveAsWrittenKeepsShape(g, draws);
        if MoveAsWritten(g, draws).Some? {
          RunAsWrittenKeepsShape(MoveAsWritten(g, draws).value, es[1..]);
        }
      case Press(b) =>
        TurnAsWrittenKeepsShape(g, b);
        RunAsWrittenKeepsShape(TurnAsWritten(g, Heading(b)), es[1..]);
      case StartPressed =>
        RunAsWrittenKeepsShape(StartGame(g), es[1..]);
      case ClockSecond =>
        RunAsWrittenKeepsShape(Second(g), es[1..]);
    }
  }

  /** In every state the game as written can reach, the snake lies on the
      grid without overlapping itself, the food is on the grid, the score is
      10 per cell grown, and a finished game is not running. */
  lemma ReachableAsWritten(es: seq<Event>)
    ensures forall g :: RunAsWritten(Initial, es) == Some(g) ==>
      && |g.snake| >= 1
      && (forall i :: 0 <= i < |g.snake| ==> InGrid(g.snake[i]))
      && Distinct(g.snake)
      && InGrid(g.food)
      && g.score == PointsPerFood * (|g.snake| - 1)
      && (g.gameOver ==> !g.running)
  {
    RunAsWrittenKeepsShape(Initial, es);
  }

  /* ---------- the two defects of the original ---------- */

  /** The state after "Start", "left", two ticks, "up" and one more tick:
      the snake sits right below the food. */
  const Hungry: Game := Game([Pos(5, 6)], Pos(5, 5), Pos(0, -1), false, true, 0, 0)

  lemma HungryIsReachable(es: seq<Event>)
    requires es == [StartPressed, Press(Left), Tick([]), Tick([]), Press(Up), Tick([])]
    ensures Run(Initial, es) == Some(Hungry)
  {
    var g3 := Game([Pos(6, 7)], Pos(5, 5), Pos(-1, 0), false, true, 0, 0);
    var opening, closing := es[..3], es[3..];
    OpeningMoves(opening, g3);
    ClosingMoves(g3, closing);
    RunAppend(Initial, opening, closing);
    assert opening + closing == es;
  }

  lemma OpeningMoves(es: seq<Event>, g3: Game)
    requires es == [StartPressed, Press(Left), Tick([])]
    requires g3 == Game([Pos(6, 7)], Pos(5, 5), Pos(-1, 0), false, true, 0, 0)
    ensures Run(Initial, es) == Some(g3)
  {
    var g1 := Game([Pos(7, 7)], Pos(5, 5), Pos(0, -1), false, true, 0, 0);
    var g2 := g1.(direction := Pos(-1, 0));
    StartThenLeft(g1, g2);
    Slide(g2, Pos(6, 7));
    RunStep(g2, Tick([]), [], g3);
    RunStep(g1, Press(Left), [Tick([])], g2);
    RunStep(Initial, StartPressed, [Press(Left), Tick([])], g1);
    assert [StartPressed] + [Press(Left), Tick([])] == es;
  }

  lemma StartThenLeft(g1: Game, g2: Game)
    requires g1 == Game([Pos(7, 7)], Pos(5, 5), Pos(0, -1), false, true, 0, 0)
    requires g2 == g1.(direction := Pos(-1, 0))
    ensures Step(Initial, StartPressed) == Some(g1)
    ensures Step(g1, Press(Left)) == Some(g2)
  {
    StartFromInitial(g1);
    LeftFromStart(g1, g2);
  }

  lemma StartFromInitial(g1: Game)
    requires g1 == Game([Pos(7, 7)], Pos(5, 5), Pos(0, -1), false, true, 0, 0)
    ensures Step(Initial, StartPressed) == Some(g1)
    ensures StepAsWritten(Initial, StartPressed) == Some(g1)
  {
    assert StartGame(Initial) == g1;
  }

  lemma LeftFromStart(g1: Game, g2: Game)
    requires g1 == Game([Pos(7, 7)], Pos(5, 5), Pos(0, -1), false, true, 0, 0)
    requires g2 == g1.(direction := Pos(-1, 0))
    ensures Step(g1, Press(Left)) == Some(g2)
    ensures StepAsWritten(g1, Press(Left)) == Some(g2)
  {
    assert TurnAsWritten(g1, Pos(-1, 0)) == g2;
    assert Heading(Left) == Pos(-1, 0);
  }

  lemma ClosingMoves(g3: Game, es: seq<Event>)
    requires es == [Tick([]), Press(Up), Tick([])]
    requires g3 == Game([Pos(6, 7)], Pos(5, 5), Pos(-1, 0), false, true, 0, 0)
    ensures Run(g3, es) == Some(Hungry)
  {
    var g4 := g3.(snake := [Pos(5, 7)]);
    var g5 := g4.(direction := Pos(0, -1));
    Slide(g3, Pos(5, 7));
    assert Turn(g4, Heading(Up)) == g5;
    Slide(g5, Pos(5, 6));
    RunStep(g5, Tick([]), [], Hungry);
    RunStep(g4, Press(Up), [Tick([])], g5);
    RunStep(g3, Tick([]), [Press(Up), Tick([])], g4);
    assert [Tick([])] + [Press(Up), Tick([])] == es;
  }

  /** The program as written reaches `Hungry` by the same events: no press
      on the way turns a one-cell snake and no tick eats, so the two defects
      play no part in getting there. */
  lemma HungryIsReachableAsWritten(es: seq<Event>)
    requires es == [StartPressed, Press(Left), Tick([]), Tick([]), Press(Up), Tick([])]
    ensures RunAsWritten(Initial, es) == Some(Hungry)
  {
    var g3 := Game([Pos(6, 7)], Pos(5, 5), Pos(-1, 0), false, true, 0, 0);
    var opening, closing := es[..3], es[3..];
    OpeningMovesAsWritten(opening, g3);
    ClosingMovesAsWritten(g3, closing);
    RunAsWrittenAppend(Initial, opening, closing);
    assert opening + closing == es;
  }

  lemma OpeningMovesAsWritten(es: seq<Event>, g3: Game)
    requires es == [StartPressed, Press(Left), Tick([])]
    requires g3 == Game([Pos(6, 7)], Pos(5, 5), Pos(-1, 0), false, true, 0, 0)
    ensures RunAsWritten(Initial, es) == Some(g3)
  {
    var g1 := Game([Pos(7, 7)], Pos(5, 5), Pos(0, -1), false, true, 0, 0);
    var g2 := g1.(direction := Pos(-1, 0));
    StartFromInitial(g1);
    LeftFromStart(g1, g2);
    Slide(g2, Pos(6, 7));
    RunAsWrittenStep(g2, Tick([]), [], g3);
    RunAsWrittenStep(g1, Press(Left), [Tick([])], g2);
    RunAsWrittenStep(Initial, StartPressed, [Press(Left), Tick([])], g1);
    assert [StartPressed] + [Press(Left), Tick([])] == es;
  }

  lemma ClosingMovesAsWritten(g3: Game, es: seq<Event>)
    requires es == [Tick([]), Press(Up), Tick([])]
    requires g3 == Game([Pos(6, 7)], Pos(5, 5), Pos(-1, 0), false, true, 0, 0)
    ensures RunAsWritten(g3, es) == Some(Hungry)
  {
    var g4 := g3.(snake := [Pos(5, 7)]);
    var g5 := g4.(direction := Pos(0, -1));
    Slide(g3, Pos(5, 7));
    assert TurnAsWritten(g4, Heading(Up)) == g5;
    Slide(g5, Pos(5, 6));
    RunAsWrittenStep(g5, Tick([]), [], Hungry);
    RunAsWrittenStep(g4, Press(Up), [Tick([])], g5);
    RunAsWrittenStep(g3, Tick([]), [Press(Up), Tick([])], g4);
    assert [Tick([])] + [Press(Up), Tick([])] == es;
  }

  lemma RunAsWrittenStep(g: Game, e: Event, es: seq<Event>, g': Game)
    requires StepAsWritten(g, e) == Some(g')
    ensures RunAsWritten(g, [e] + es) == RunAsWritten(g', es)
  {
    assert ([e] + es)[1..] == es;
  }

  lemma {:induction false} RunAsWrittenAppend(g: Game, a: seq<Event>, b: seq<Event>)
    ensures RunAsWritten(g, a + b) == match RunAsWritten(g, a) case None => None case Some(g') => RunAsWritten(g', b)
    decreases |a|
  {
    if a == [] {
      assert a + b == b;
    } else {
      assert (a + b)[0] == a[0] && (a + b)[1..] == a[1..] + b;
      match StepAsWritten(g, a[0])
      case None =>
      case Some(g') => RunAsWrittenAppend(g', a[1..], b);
    }
  }

  /** Running two series of events is running the first, then the second
      from where it ended. */
  lemma {:induction false} RunAppend(g: Game, a: seq<Event>, b: seq<Event>)
    ensures Run(g, a + b) == match Run(g, a) case None => None case Some(g') => Run(g', b)
    decreases |a|
  {
    if a == [] {
      assert a + b == b;
    } else {
      assert (a + b)[0] == a[0] && (a + b)[1..] == a[1..] + b;
      match Step(g, a[0])
      case None =>
      case Some(g') => RunAppend(g', a[1..], b);
    }
  }

  /** A one-cell snake steps onto an empty cell. */
  lemma Slide(g: Game, head: Pos)
    requires g.running && !g.gameOver && |g.snake| == 1
    requires head == Plus(g.snake[0], g.direction) && InGrid(head)
    requires head != g.snake[0] && head != g.food
    ensures Move(g, []) == Some(g.(snake := [head]))
    ensures MoveAsWritten(g, []) == Some(g.(snake := [head]))
  {
    assert [head] + g.snake[..0] == [head];
  }

  lemma RunStep(g: Game, e: Event, es: seq<Event>, g': Game)
    requires Step(g, e) == Some(g')
    ensures Run(g, [e] + es) == Run(g', es)
  {
    assert ([e] + es)[1..] == es;
  }

  /** As written, the food eaten from `Hungry` may be replaced right under
      the snake's new head, because the generator only avoids the snake as
      it was before the move: a first draw of the eaten cell is accepted. */
  lemma FoodCanLandOnHead()
    ensures var o := MoveAsWritten(Hungry, [Pos(5, 5)]);
      o.Some? && o.value.food == o.value.snake[0]
  {
    assert Pos(5, 5) !in Hungry.snake;
    assert GenerateFood(Hungry.snake, [Pos(5, 5)]) == Some(Pos(5, 5));
  }

  /** With the food placed clear of the grown snake it never lands on it. */
  lemma FoodNeverOnSnake(g: Game, draws: seq<Pos>)
    requires Inv(g)
    ensures forall g' :: Move(g, draws) == Some(g') ==> g'.food !in g'.snake
  {
    MovePreservesInv(g, draws);
  }

  /** As written, after the snake has grown to two cells, pressing "left"
      and then "down" before the next tick passes both reversal tests and
      the tick runs the head into its own neck. */
  lemma QuickTurnsBiteNeck(draws: seq<Pos>, draws2: seq<Pos>)
    requires GenerateFood(Hungry.snake, draws).Some?
    ensures var o := MoveAsWritten(Hungry, draws);
      && o.Some?
      && o.value.snake == [Pos(5, 5), Pos(5, 6)]
      && var turned := TurnAsWritten(TurnAsWritten(o.value, Heading(Left)), Heading(Down));
      && turned.direction == Heading(Down)
      && MoveAsWritten(turned, draws2) == Some(Crash(turned))
  {
    var fed := Hungry.(snake := [Pos(5, 5), Pos(5, 6)], score := 10,
                       food := GenerateFood(Hungry.snake, draws).value);
    assert [Pos(5, 5)] + Hungry.snake == fed.snake;
    assert MoveAsWritten(Hungry, draws) == Some(fed);
    var turned := fed.(direction := Pos(0, 1));
    assert TurnAsWritten(TurnAsWritten(fed, Heading(Left)), Heading(Down)) == turned;
    IntoNeck(turned, draws2);
  }

  /** A tick that sends the head onto the cell behind it ends the game. */
  lemma IntoNeck(g: Game, draws: seq<Pos>)
    requires g.running && !g.gameOver && |g.snake| >= 2
    requires Plus(g.snake[0], g.direction) == g.snake[1]
    ensures MoveAsWritten(g, draws) == Some(Crash(g))
  {
    assert g.snake[1] in g.snake;
  }

  /** With the reversal test against the neck, the same presses leave the
      snake heading left and the tick does not end the game. */
  lemma QuickTurnsKeptSafe(draws: seq<Pos>, draws2: seq<Pos>)
    requires GenerateFood([Pos(5, 5), Pos(5, 6)], draws).Some?
    ensures var o := Move(Hungry, draws);
      && o.Some?
      && o.value.snake == [Pos(5, 5), Pos(5, 6)]
      && var turned := Turn(Turn(o.value, Heading(Left)), Heading(Down));
      && turned.direction == Heading(Left)
      && forall g' :: Move(turned, draws2) == Some(g') ==> !g'.gameOver
  {
    var fed := Hungry.(snake := [Pos(5, 5), Pos(5, 6)], score := 10,
                       food := GenerateFood([Pos(5, 5), Pos(5, 6)], draws).value);
    assert [Pos(5, 5)] + Hungry.snake == fed.snake;
    assert Move(Hungry, draws) == Some(fed);
    var left := Turn(fed, Heading(Left));
    assert left == fed.(direction := Pos(-1, 0));
    var turned := Turn(left, Heading(Down));
    assert turned == left;
    assert Plus(turned.snake[0], turned.direction) == Pos(4, 5);
  }
}

=== FILE: stable_sort.dfy ===
/** `Array.prototype.sort` with a comparator that orders elements by a
    small natural-number key. Since ECMAScript 2019 that sort is required
    to be stable, so its result is determined: the elements with the
    smallest key first, then the next key, and so on, each group in its
    original order. The model sorts by insertion and proves it produces
    exactly that arrangement (`SortIsBuckets`), and that no other sorted
    arrangement keeps every group's order (`SortUnique`). */
module StableSort {

  import Seqs

  /** Keys never decrease along `s`. */
  predicate Sorted<T>(s: seq<T>, key: T -> nat) {
    forall i, j :: 0 <= i < j < |s| ==> key(s[i]) <= key(s[j])
  }

  /** Every key in `s` lies in `[lo, hi)`. */
  predicate KeysWithin<T>(s: seq<T>, key: T -> nat, lo: nat, hi: nat) {
    forall i :: 0 <= i < |s| ==> lo <= key(s[i]) < hi
  }

  /** The elements of `s` whose key is `k`, in their order in `s`. */
  function Bucket<T>(s: seq<T>, key: T -> nat, k: nat): (r: seq<T>)
    ensures |r| <= |s|
  {
    if s == [] then [] else (if key(s[0]) == k then [s[0]] else []) + Bucket(s[1..], key, k)
  }

  /** The buckets `lo`, `lo + 1`, ..., `hi - 1` of `s`, one after another. */
  function Buckets<T>(s: seq<T>, key: T -> nat, lo: nat, hi: nat): seq<T>
    decreases hi - lo
  {
    if lo >= hi then [] else Bucket(s, key, lo) + Buckets(s, key, lo + 1, hi)
  }

  /** The buckets can be peeled off from the top as well. */
  lemma {:induction false} BucketsSnoc<T>(s: seq<T>, key: T -> nat, lo: nat, hi: nat)
    requires lo < hi
    ensures Buckets(s, key, lo, hi) == Buckets(s, key, lo, hi - 1) + Bucket(s, key, hi - 1)
    decreases hi - lo
  {
    if lo + 1 == hi {
      assert Buckets(s, key, lo + 1, hi) == [];
      assert Buckets(s, key, lo, hi - 1) == [];
    } else {
      BucketsSnoc(s, key, lo + 1, hi);
      var a, b, c := Bucket(s, key, lo), Buckets(s, key, lo + 1, hi - 1), Bucket(s, key, hi - 1);
      assert a + (b + c) == (a + b) + c;
    }
  }

  /** `x` placed in front of the first element of `s` whose key is at least
      its own: ahead of every element with the same key. */
  function Insert<T>(x: T, s: seq<T>, key: T -> nat): (r: seq<T>)
    ensures multiset(r) == multiset{x} + multiset(s)
  {
    if s == [] || key(x) <= key(s[0]) then
      [x] + s
    else
      assert s == [s[0]] + s[1..];
      [s[0]] + Insert(x, s[1..], key)
  }

  lemma {:induction false} InsertSorted<T>(x: T, s: seq<T>, key: T -> nat)
    requires Sorted(s, key)
    ensures Sorted(Insert(x, s, key), key)
    decreases |s|
  {
    if s != [] && key(x) > key(s[0]) {
      var rest := Insert(x, s[1..], key);
      InsertSorted(x, s[1..], key);
      var r := [s[0]] + rest;
      forall i, j | 0 <= i < j < |r| ensures key(r[i]) <= key(r[j]) {
        if i == 0 {
          assert r[j] == rest[j - 1];
          assert rest[j - 1] in multiset(rest);
          if rest[j - 1] != x {
            assert rest[j - 1] in multiset(s[1..]);
            var m :| 0 <= m < |s[1..]| && s[1..][m] == rest[j - 1];
            assert s[m + 1] == rest[j - 1];
          }
        } else {
          assert r[i] == rest[i - 1] && r[j] == rest[j - 1];
        }
      }
    }
  }

  /** The stable sort of `s` by `key`. */
  function Sort<T>(s: seq<T>, key: T -> nat): (r: seq<T>)
    ensures Sorted(r, key)
    ensures multiset(r) == multiset(s)
  {
    if s == [] then []
    else
      var rest := Sort(s[1..], key);
      InsertSorted(s[0], rest, key);
      assert s == [s[0]] + s[1..];
      Insert(s[0], rest, key)
  }

  lemma {:induction false} BucketInsert<T>(x: T, s: seq<T>, key: T -> nat, k: nat)
    ensures Bucket(Insert(x, s, key), key, k) == (if key(x) == k then [x] else []) + Bucket(s, key, k)
    decreases |s|
  {
    if s == [] || key(x) <= key(s[0]) {
      assert ([x] + s)[1..] == s;
    } else {
      BucketInsert(x, s[1..], key, k);
      assert ([s[0]] + Insert(x, s[1..], key))[1..] == Insert(x, s[1..], key);
    }
  }

  /** Stability: sorting leaves the order within every key group as it was. */
  lemma {:induction false} SortKeepsBuckets<T>(s: seq<T>, key: T -> nat, k: nat)
    ensures Bucket(Sort(s, key), key, k) == Bucket(s, key, k)
    decreases |s|
  {
    if s != [] {
      SortKeepsBuckets(s[1..], key, k);
      BucketInsert(s[0], Sort(s[1..], key), key, k);
    }
  }

  lemma SortKeepsAllBuckets<T>(s: seq<T>, key: T -> nat)
    ensures forall k :: Bucket(Sort(s, key), key, k) == Bucket(s, key, k)
  {
    forall k ensures Bucket(Sort(s, key), key, k) == Bucket(s, key, k) {
      SortKeepsBuckets(s, key, k);
    }
  }

  /** A bucket is the filter of the elements a predicate picks out, when that
      predicate holds exactly of the bucket's key. */
  lemma {:induction false} BucketIsFilter<T>(s: seq<T>, key: T -> nat, k: nat, keep: T -> bool)
    requires forall x :: keep(x) <==> key(x) == k
    ensures Bucket(s, key, k) == Seqs.Filter(s, keep)
    decreases |s|
  {
    if s != [] {
      BucketIsFilter(s[1..], key, k, keep);
    }
  }

  /** A sorted sequence splits into the group of its lowest key and a sorted
      rest that holds every other group unchanged. */
  lemma {:induction false} SplitLowest<T>(t: seq<T>, key: T -> nat, lo: nat, hi: nat)
    requires Sorted(t, key) && KeysWithin(t, key, lo, hi)
    ensures var rest := t[|Bucket(t, key, lo)|..];
      && t == Bucket(t, key, lo) + rest
      && Sorted(rest, key) && KeysWithin(rest, key, lo + 1, hi)
      && forall k :: k != lo ==> Bucket(rest, key, k) == Bucket(t, key, k)
    decreases |t|
  {
    if t == [] {
    } else if key(t[0]) == lo {
      var tail := t[1..];
      TailSorted(t, key, lo, hi);
      SplitLowest(tail, key, lo, hi);
      var b := Bucket(tail, key, lo);
      assert Bucket(t, key, lo) == [t[0]] + b;
      assert t[|b| + 1..] == tail[|b|..];
      assert t == [t[0]] + tail;
      forall k | k != lo ensures Bucket(tail, key, k) == Bucket(t, key, k) {
        assert Bucket(t, key, k) == Bucket(tail, key, k);
      }
    } else {
      AllAboveLowest(t, key, lo, hi);
      NoneWithKey(t, key, lo);
      assert t[0..] == t;
    }
  }

  lemma TailSorted<T>(t: seq<T>, key: T -> nat, lo: nat, hi: nat)
    requires t != [] && Sorted(t, key) && KeysWithin(t, key, lo, hi)
    ensures Sorted(t[1..], key) && KeysWithin(t[1..], key, lo, hi)
  {
    assert forall i :: 0 <= i < |t[1..]| ==> t[1..][i] == t[i + 1];
  }

  /** When the first key of a sorted sequence is above `lo`, every key is. */
  lemma AllAboveLowest<T>(t: seq<T>, key: T -> nat, lo: nat, hi: nat)
    requires t != [] && Sorted(t, key) && KeysWithin(t, key, lo, hi) && key(t[0]) != lo
    ensures forall i :: 0 <= i < |t| ==> lo < key(t[i])
    ensures KeysWithin(t, key, lo + 1, hi)
  {
    forall i | 0 <= i < |t| ensures lo < key(t[i]) {
      if i > 0 {
        assert key(t[0]) <= key(t[i]);
      }
    }
  }

  /** A sequence whose keys all exceed `lo` has an empty `lo` bucket. */
  lemma {:induction false} NoneWithKey<T>(t: seq<T>, key: T -> nat, lo: nat)
    requires forall i :: 0 <= i < |t| ==> lo < key(t[i])
    ensures Bucket(t, key, lo) == []
    decreases |t|
  {
    if t != [] {
      NoneWithKey(t[1..], key, lo);
    }
  }

  /** Sequences with the same buckets concatenate them to the same result. */
  lemma {:induction false} BucketsAgree<T>(a: seq<T>, b: seq<T>, key: T -> nat, lo: nat, hi: nat)
    requires forall k :: lo <= k < hi ==> Bucket(a, key, k) == Bucket(b, key, k)
    ensures Buckets(a, key, lo, hi) == Buckets(b, key, lo, hi)
    decreases hi - lo
  {
    if lo < hi {
      BucketsAgree(a, b, key, lo + 1, hi);
    }
  }

  /** A sorted sequence is its buckets laid end to end. */
  lemma {:induction false} SortedIsBuckets<T>(t: seq<T>, key: T -> nat, lo: nat, hi: nat)
    requires Sorted(t, key) && KeysWithin(t, key, lo, hi)
    ensures t == Buckets(t, key, lo, hi)
    decreases hi - lo
  {
    if t == [] {
      EmptyBuckets(t, key, lo, hi);
    } else {
      assert lo <= key(t[0]) < hi;
      SplitLowest(t, key, lo, hi);
      var rest := t[|Bucket(t, key, lo)|..];
      SortedIsBuckets(rest, key, lo + 1, hi);
      BucketsAgree(rest, t, key, lo + 1, hi);
    }
  }

  lemma {:induction false} EmptyBuckets<T>(t: seq<T>, key: T -> nat, lo: nat, hi: nat)
    requires t == []
    ensures Buckets(t, key, lo, hi) == []
    decreases hi - lo
  {
    if lo < hi {
      EmptyBuckets(t, key, lo + 1, hi);
    }
  }

  /** The sort is the groups of `s` in key order, each in its original order. */
  lemma SortIsBuckets<T>(s: seq<T>, key: T -> nat, hi: nat)
    requires KeysWithin(s, key, 0, hi)
    ensures Sort(s, key) == Buckets(s, key, 0, hi)
  {
    var r := Sort(s, key);
    assert KeysWithin(r, key, 0, hi) by {
      forall i | 0 <= i < |r| ensures key(r[i]) < hi {
        assert r[i] in multiset(s);
      }
    }
    SortedIsBuckets(r, key, 0, hi);
    forall k | 0 <= k < hi ensures Bucket(r, key, k) == Bucket(s, key, k) {
      SortKeepsBuckets(s, key, k);
    }
    BucketsAgree(r, s, key, 0, hi);
  }

  /** Any sorted arrangement that keeps every group's order is the sort:
      all stable sorts agree. */
  lemma SortUnique<T>(s: seq<T>, t: seq<T>, key: T -> nat, hi: nat)
    requires KeysWithin(s, key, 0, hi) && KeysWithin(t, key, 0, hi)
    requires Sorted(t, key)
    requires forall k :: 0 <= k < hi ==> Bucket(t, key, k) == Bucket(s, key, k)
    ensures t == Sort(s, key)
  {
    SortedIsBuckets(t, key, 0, hi);
    BucketsAgree(t, s, key, 0, hi);
    SortIsBuckets(s, key, hi);
  }
}

=== FILE: text.dfy ===
/** The few JavaScript string operations the screens rely on:
    `String.prototype.trim`, `Number.prototype.toString` on non-negative
    integers and `String.prototype.padStart`, together with the decimal
    reading of a digit string that serves as their inverse. */
module Text {

  /* ---------- trim ---------- */

  /** The code points JavaScript's `trim` strips: the WhiteSpace and
      LineTerminator productions of ECMAScript (section 12.2 and 12.3 of
      ECMA-262, 2023 edition). */
  predicate IsSpace(c: char) {
    || c == '\t' || c == '\n' || c == '\U{000B}' || c == '\U{000C}' || c == '\r'
    || c == ' ' || c == '\U{00A0}' || c == '\U{1680}'
    || ('\U{2000}' <= c <= '\U{200A}')
    || c == '\U{2028}' || c == '\U{2029}' || c == '\U{202F}' || c == '\U{205F}'
    || c == '\U{3000}' || c == '\U{FEFF}'
  }

  predicate AllSpace(s: string) {
    forall i :: 0 <= i < |s| ==> IsSpace(s[i])
  }

  /** `s` with its leading white space removed. */
  function TrimStart(s: string): (r: string)
    ensures exists i :: 0 <= i <= |s| && r == s[i..] && AllSpace(s[..i])
    ensures r == [] || !IsSpace(r[0])
    decreases |s|
  {
    if |s| > 0 && IsSpace(s[0]) then
      var r := TrimStart(s[1..]);
      var i :| 0 <= i <= |s[1..]| && r == s[1..][i..] && AllSpace(s[1..][..i]);
      DropFirst(s, i);
      SpaceCons(s[0], s[1..][..i]);
      r
    else
      assert s == s[0..] && s[..0] == [];
      s
  }

  /** `s` with its trailing white space removed. */
  function TrimEnd(s: string): (r: string)
    ensures exists j :: 0 <= j <= |s| && r == s[..j] && AllSpace(s[j..])
    ensures r == [] || !IsSpace(r[|r| - 1])
    decreases |s|
  {
    if |s| > 0 && IsSpace(s[|s| - 1]) then
      var init := s[..|s| - 1];
      var r := TrimEnd(init);
      var j :| 0 <= j <= |init| && r == init[..j] && AllSpace(init[j..]);
      DropLast(s, j);
      SpaceSnoc(init[j..], s[|s| - 1]);
      r
    else
      assert s == s[..|s|] && s[|s|..] == [];
      s
  }

  lemma SpaceCons(c: char, t: string)
    requires IsSpace(c) && AllSpace(t)
    ensures AllSpace([c] + t)
  {
    assert forall k :: 0 < k <= |t| ==> ([c] + t)[k] == t[k - 1];
  }

  lemma DropFirst(s: string, i: nat)
    requires 0 < |s| && i < |s|
    ensures s[1..][i..] == s[i + 1..]
    ensures s[..i + 1] == [s[0]] + s[1..][..i]
  {
  }

  lemma SpaceSnoc(t: string, c: char)
    requires AllSpace(t) && IsSpace(c)
    ensures AllSpace(t + [c])
  {
    assert forall k :: 0 <= k < |t| ==> (t + [c])[k] == t[k];
  }

  lemma DropLast(s: string, j: nat)
    requires j < |s|
    ensures s[..|s| - 1][..j] == s[..j]
    ensures s[j..] == s[..|s| - 1][j..] + [s[|s| - 1]]
  {
  }

  /** JavaScript's `s.trim()`: the infix of `s` left once white space is
      removed from both ends. */
  function Trim(s: string): (r: string)
    ensures exists i, j :: 0 <= i <= j <= |s| && r == s[i..j] && AllSpace(s[..i]) && AllSpace(s[j..])
    ensures r == [] || (!IsSpace(r[0]) && !IsSpace(r[|r| - 1]))
  {
    TrimBothEnds(s);
    TrimEnd(TrimStart(s))
  }

  lemma TrimBothEnds(s: string)
    ensures var r := TrimEnd(TrimStart(s));
      && (exists i, j :: 0 <= i <= j <= |s| && r == s[i..j] && AllSpace(s[..i]) && AllSpace(s[j..]))
      && (r == [] || (!IsSpace(r[0]) && !IsSpace(r[|r| - 1])))
  {
    var t := TrimStart(s);
    var i :| 0 <= i <= |s| && t == s[i..] && AllSpace(s[..i]);
    var r := TrimEnd(t);
    var j :| 0 <= j <= |t| && r == t[..j] && AllSpace(t[j..]);
    InfixOfSuffix(s, i, j);
    assert AllSpace(s[i + j..]);
    assert r == [] || r[0] == t[0];
  }

  lemma InfixOfSuffix(s: string, i: nat, j: nat)
    requires i <= |s| && j <= |s| - i
    ensures s[i..][..j] == s[i..i + j] && s[i..][j..] == s[i + j..]
  {
  }

  /** A string is blank exactly when its trim is empty: the truthiness test
      `if (input.trim())` of the list screens. */
  lemma TrimEmptyIffBlank(s: string)
    ensures Trim(s) == [] <==> AllSpace(s)
  {
    var r := Trim(s);
    var i, j :| 0 <= i <= j <= |s| && r == s[i..j] && AllSpace(s[..i]) && AllSpace(s[j..]);
    if r == [] {
      assert |s[i..j]| == 0;
      SpaceAround(s, i);
    } else {
      assert s[i] == r[0];
    }
  }

  /** White space before and after a cut is white space throughout. */
  lemma SpaceAround(s: string, i: nat)
    requires i <= |s| && AllSpace(s[..i]) && AllSpace(s[i..])
    ensures AllSpace(s)
  {
    forall k | 0 <= k < |s| ensures IsSpace(s[k]) {
      if k < i { assert s[k] == s[..i][k]; } else { assert s[k] == s[i..][k - i]; }
    }
  }

  /** Trimming twice is trimming once. */
  lemma TrimIdempotent(s: string)
    ensures Trim(Trim(s)) == Trim(s)
  {
    var r := Trim(s);
    TrimmedIsFixed(r);
  }

  lemma TrimmedIsFixed(r: string)
    requires r == [] || (!IsSpace(r[0]) && !IsSpace(r[|r| - 1]))
    ensures Trim(r) == r
  {
    assert TrimStart(r) == r;
    assert TrimEnd(r) == r;
  }

  /* ---------- decimal digits ---------- */

  predicate IsDigit(c: char) {
    '0' <= c <= '9'
  }

  predicate AllDigits(s: string) {
    forall i :: 0 <= i < |s| ==> IsDigit(s[i])
  }

  function DigitChar(d: nat): (c: char)
    requires d < 10
    ensures IsDigit(c)
  {
    ('0' as int + d) as char
  }

  function DigitValue(c: char): (d: nat)
    requires IsDigit(c)
    ensures d < 10
  {
    c as int - '0' as int
  }

  /** The number a string of decimal digits denotes (leading zeros allowed). */
  function Value(s: string): nat
    requires AllDigits(s)
  {
    if s == [] then 0 else Value(s[..|s| - 1]) * 10 + DigitValue(s[|s| - 1])
  }

  /** `n.toString()` for a non-negative integer `n`: its shortest decimal
      numeral. */
  function DecimalString(n: nat): (r: string)
    ensures |r| >= 1 && AllDigits(r)
    ensures |r| == 1 <==> n < 10
    ensures r[0] != '0' || n == 0
    decreases n
  {
    if n < 10 then [DigitChar(n)] else DecimalString(n / 10) + [DigitChar(n % 10)]
  }

  /** Reading back the numeral gives the number: `DecimalString` is injective. */
  lemma {:induction false} ValueOfDecimal(n: nat)
    ensures Value(DecimalString(n)) == n
    decreases n
  {
    var r := DecimalString(n);
    if n >= 10 {
      ValueOfDecimal(n / 10);
      assert r[..|r| - 1] == DecimalString(n / 10);
    }
  }

  lemma DecimalInjective(a: nat, b: nat)
    requires DecimalString(a) == DecimalString(b)
    ensures a == b
  {
    ValueOfDecimal(a);
    ValueOfDecimal(b);
  }

  /** Two strings that share a prefix and a suffix around decimal numerals
      are equal only when the numerals' numbers are. */
  lemma FramedDecimalInjective(pre: string, a: nat, b: nat, post: string)
    requires pre + DecimalString(a) + post == pre + DecimalString(b) + post
    ensures a == b
  {
    var sa, sb := DecimalString(a), DecimalString(b);
    var whole := pre + sa + post;
    assert |sa| == |sb|;
    assert sa == whole[|pre|..|pre| + |sa|];
    assert sb == (pre + sb + post)[|pre|..|pre| + |sb|];
    DecimalInjective(a, b);
  }

  /* ---------- padStart ---------- */

  /** JavaScript's `s.padStart(width, fill)` for a one-character `fill`:
      `s` itself when it is already `width` long, otherwise `s` preceded by
      enough copies of `fill`. */
  function PadStart(s: string, width: nat, fill: char): (r: string)
    ensures |s| >= width ==> r == s
    ensures |s| < width ==> |r| == width
    ensures r[|r| - |s|..] == s
    decreases width - |s|
  {
    if |s| >= width then s
    else
      var r := PadStart([fill] + s, width, fill);
      assert r[|r| - |s|..] == r[|r| - (|s| + 1)..][1..];
      r
  }

  /** Everything in front of `s` is the fill character. */
  lemma {:induction false} PadStartFill(s: string, width: nat, fill: char)
    ensures forall i :: 0 <= i < |PadStart(s, width, fill)| - |s| ==> PadStart(s, width, fill)[i] == fill
    decreases width - |s|
  {
    if |s| < width {
      var r := PadStart([fill] + s, width, fill);
      assert PadStart(s, width, fill) == r;
      PadStartFill([fill] + s, width, fill);
      var k := |r| - (|s| + 1);
      assert r[k..] == [fill] + s;
      forall i | 0 <= i < |r| - |s| ensures r[i] == fill {
        if i == k {
          assert r[i] == r[k..][0];
        } else {
          assert i < |r| - |[fill] + s|;
        }
      }
    }
  }

  /** Leading zeros do not change a numeral's value. */
  lemma {:induction false} ValueIgnoresLeadingZeros(z: string, s: string)
    requires forall i :: 0 <= i < |z| ==> z[i] == '0'
    requires AllDigits(s)
    ensures AllDigits(z + s)
    ensures Value(z + s) == Value(s)
    decreases |s|
  {
    var w := z + s;
    assert AllDigits(w) by {
      forall i | 0 <= i < |w| ensures IsDigit(w[i]) {
        if i < |z| { assert w[i] == z[i]; } else { assert w[i] == s[i - |z|]; }
      }
    }
    if s == [] {
      assert w == z;
      AllZerosValue(z);
    } else {
      assert w[..|w| - 1] == z + s[..|s| - 1];
      ValueIgnoresLeadingZeros(z, s[..|s| - 1]);
    }
  }

  lemma {:induction false} AllZerosValue(z: string)
    requires forall i :: 0 <= i < |z| ==> z[i] == '0'
    ensures AllDigits(z) && Value(z) == 0
    decreases |z|
  {
    if z != [] {
      AllZerosValue(z[..|z| - 1]);
    }
  }

  /** Zero-padding a numeral keeps its value. */
  lemma PadZerosValue(s: string, width: nat)
    requires AllDigits(s)
    ensures AllDigits(PadStart(s, width, '0'))
    ensures Value(PadStart(s, width, '0')) == Value(s)
  {
    var r := PadStart(s, width, '0');
    PadStartFill(s, width, '0');
    var z := r[..|r| - |s|];
    assert forall i :: 0 <= i < |z| ==> z[i] == r[i];
    assert forall i :: 0 <= i < |z| ==> z[i] == '0';
    assert r == z + s;
    ValueIgnoresLeadingZeros(z, s);
  }
}

=== FILE: todo_list.dfy ===
/** The todo list screen: like the grocery list, but every item carries a
    priority chosen before adding, and a toggle sorts unchecked before
    checked and, within each, high before medium before low. The item id,
    produced by the clock in the original program, is a parameter here. */
module TodoList {

  import Text
  import Seqs
  import StableSort

  datatype Priority = Low | Medium | High

  datatype TodoItem = TodoItem(id: string, text: string, completed: bool, priority: Priority)

  /** The screen's state: the list, the text field and the selected
      priority button. */
  datatype TodoState = TodoState(items: seq<TodoItem>, input: string, selected: Priority)

  /* ---------- addItem ---------- */

  /** Pressing "Add" with `newId` as the fresh item's id: blank input is
      ignored, anything else is appended trimmed, unchecked and with the
      selected priority, and the text field is cleared. */
  function AddItem(st: TodoState, newId: string): (r: TodoState)
    ensures Text.AllSpace(st.input) ==> r == st
    ensures !Text.AllSpace(st.input) ==>
      && |r.items| == |st.items| + 1
      && r.items[..|st.items|] == st.items
      && r.items[|st.items|] == TodoItem(newId, Text.Trim(st.input), false, st.selected)
      && r.items[|st.items|].text != []
      && r.input == []
      && r.selected == st.selected
  {
    var text := Text.Trim(st.input);
    Text.TrimEmptyIffBlank(st.input);
    if text == [] then st
    else st.(items := st.items + [TodoItem(newId, text, false, st.selected)], input := "")
  }

  /* ---------- toggleItem ---------- */

  function Flipper(id: string): TodoItem -> TodoItem {
    (it: TodoItem) => if it.id == id then it.(completed := !it.completed) else it
  }

  /** The `map` step of a toggle: the items with id `id` change their check
      box, nothing else changes. */
  function Flip(items: seq<TodoItem>, id: string): (r: seq<TodoItem>)
    ensures |r| == |items|
    ensures forall i :: 0 <= i < |items| ==>
      && r[i].id == items[i].id && r[i].text == items[i].text && r[i].priority == items[i].priority
      && (r[i].completed != items[i].completed <==> items[i].id == id)
  {
    Seqs.Map(Flipper(id), items)
  }

  /** The `priorityOrder` table of the comparator. */
  function Rank(p: Priority): nat {
    match p
    case High => 3
    case Medium => 2
    case Low => 1
  }

  /** The comparator handed to `sort`, as written: the unchecked item goes
      first; between equal check boxes the higher rank goes first. */
  function Compare(a: TodoItem, b: TodoItem): int {
    if a.completed != b.completed then
      (if a.completed then 1 else -1)
    else
      Rank(b.priority) - Rank(a.priority)
  }

  /** The sort key the comparator orders by: 0 to 2 for unchecked items from
      high to low priority, 3 to 5 for checked ones. */
  function Key(it: TodoItem): nat {
    (if it.completed then 3 else 0) + (3 - Rank(it.priority))
  }

  /** The comparator's verdict is the comparison of the keys. */
  lemma CompareIsKeyOrder(a: TodoItem, b: TodoItem)
    ensures Compare(a, b) < 0 <==> Key(a) < Key(b)
    ensures Compare(a, b) == 0 <==> Key(a) == Key(b)
    ensures Compare(a, b) > 0 <==> Key(a) > Key(b)
  {
  }

  /** Pressing an item's check box: flip it, then stable-sort by check box
      and priority. */
  function ToggleItem(items: seq<TodoItem>, id: string): (r: seq<TodoItem>)
    ensures multiset(r) == multiset(Flip(items, id))
    ensures forall i, j :: 0 <= i < j < |r| && r[i].completed ==> r[j].completed
    ensures forall i, j :: 0 <= i < j < |r| && r[i].completed == r[j].completed ==>
      Rank(r[i].priority) >= Rank(r[j].priority)
    ensures forall k :: StableSort.Bucket(r, Key, k) == StableSort.Bucket(Flip(items, id), Key, k)
  {
    var flipped := Flip(items, id);
    StableSort.SortKeepsAllBuckets(flipped, Key);
    StableSort.Sort(flipped, Key)
  }

  /** The group of items with check box `done` and priority `p`. */
  function Group(items: seq<TodoItem>, done: bool, p: Priority): seq<TodoItem> {
    Seqs.Filter(items, InGroup(done, p))
  }

  function InGroup(done: bool, p: Priority): TodoItem -> bool {
    (it: TodoItem) => it.completed == done && it.priority == p
  }

  /** A toggle's result is the six groups of the flipped list, unchecked
      before checked and high before medium before low, each group in list
      order. */
  lemma ToggleIsGroups(items: seq<TodoItem>, id: string)
    ensures var f := Flip(items, id);
      ToggleItem(items, id)
        == Group(f, false, High) + Group(f, false, Medium) + Group(f, false, Low)
         + Group(f, true, High) + Group(f, true, Medium) + Group(f, true, Low)
  {
    var f := Flip(items, id);
    SortedIsSixBuckets(f);
    GroupIsBucket(f, false, High);
    GroupIsBucket(f, false, Medium);
    GroupIsBucket(f, false, Low);
    GroupIsBucket(f, true, High);
    GroupIsBucket(f, true, Medium);
    GroupIsBucket(f, true, Low);
  }

  lemma SortedIsSixBuckets(f: seq<TodoItem>)
    ensures StableSort.Sort(f, Key)
         == StableSort.Bucket(f, Key, 0) + StableSort.Bucket(f, Key, 1) + StableSort.Bucket(f, Key, 2)
          + StableSort.Bucket(f, Key, 3) + StableSort.Bucket(f, Key, 4) + StableSort.Bucket(f, Key, 5)
  {
    StableSort.SortIsBuckets(f, Key, 6);
    StableSort.BucketsSnoc(f, Key, 0, 6);
    StableSort.BucketsSnoc(f, Key, 0, 5);
    StableSort.BucketsSnoc(f, Key, 0, 4);
    StableSort.BucketsSnoc(f, Key, 0, 3);
    StableSort.BucketsSnoc(f, Key, 0, 2);
    StableSort.BucketsSnoc(f, Key, 0, 1);
    assert StableSort.Buckets(f, Key, 0, 0) == [];
    assert [] + StableSort.Bucket(f, Key, 0) == StableSort.Bucket(f, Key, 0);
  }

  lemma GroupIsBucket(f: seq<TodoItem>, done: bool, p: Priority)
    ensures Group(f, done, p) == StableSort.Bucket(f, Key, (if done then 3 else 0) + (3 - Rank(p)))
  {
    StableSort.BucketIsFilter(f, Key, (if done then 3 else 0) + (3 - Rank(p)), InGroup(done, p));
  }

  /** Toggling the same id twice gives back the same items, each with its
      original check box; only their order may differ. */
  lemma ToggleTwice(items: seq<TodoItem>, id: string)
    ensures multiset(ToggleItem(ToggleItem(items, id), id)) == multiset(items)
  {
    var once := ToggleItem(items, id);
    Seqs.MapRespectsMultiset(Flipper(id), once, Flip(items, id));
    assert Flip(Flip(items, id), id) == items;
  }

  /* ---------- deleteItem ---------- */

  function Keeps(id: string): TodoItem -> bool {
    (it: TodoItem) => it.id != id
  }

  /** Pressing an item's delete button: every item with that id goes, every
      other item stays. */
  function DeleteItem(items: seq<TodoItem>, id: string): (r: seq<TodoItem>)
    ensures forall it :: it in r <==> it in items && it.id != id
    ensures forall it :: multiset(r)[it] == if it.id == id then 0 else multiset(items)[it]
  {
    Seqs.FilterCounts(items, Keeps(id));
    Seqs.Filter(items, Keeps(id))
  }

  /** Deleting works piecewise, so the remaining items keep their order. */
  lemma DeleteKeepsOrder(a: seq<TodoItem>, b: seq<TodoItem>, id: string)
    ensures DeleteItem(a + b, id) == DeleteItem(a, id) + DeleteItem(b, id)
    ensures forall x :: DeleteItem([x], id) == if x.id == id then [] else [x]
  {
    Seqs.FilterConcat(a, b, Keeps(id));
  }

  /* ---------- getPriorityColor ---------- */

  /** The priority's name as the screen passes it around. */
  function Name(p: Priority): string {
    match p
    case High => "high"
    case Medium => "medium"
    case Low => "low"
  }

  const DefaultColor := "#007AFF"

  /** The colour of a priority tag, looked up by name: a fixed colour for
      each of the three names, the default for any other string. */
  function PriorityColor(name: string): (color: string)
    ensures color == DefaultColor <==> name !in {"high", "medium", "low"}
  {
    if name == "high" then "#FF3B30"
    else if name == "medium" then "#FF9500"
    else if name == "low" then "#34C759"
    else DefaultColor
  }

  /** Every priority gets a colour of its own, never the default. */
  lemma PriorityColorsDistinct(p: Priority, q: Priority)
    ensures PriorityColor(Name(p)) != DefaultColor
    ensures PriorityColor(Name(p)) == PriorityColor(Name(q)) <==> p == q
  {
  }
}

=== FILE: top_tabs.dfy ===
/** The top tab bar: a row of tabs, one of them active by key, and below it
    the screen of the first tab with that key. The screens themselves are
    opaque values of type `C`. */
module TopTabs {

  import opened Wrappers

  datatype Tab<C> = Tab(key: string, title: string, component: C)

  /** The key that is active when the bar first appears: the first tab's, or
      the empty key when there are no tabs. */
  function InitialActive<C>(tabs: seq<Tab<C>>): (key: string)
    ensures tabs == [] ==> key == ""
    ensures tabs != [] ==> key == tabs[0].key
  {
    // `tabs[0]?.key || ''` falls back to '' also for an empty first key,
    // which is the same string.
    if tabs == [] || tabs[0].key == "" then "" else tabs[0].key
  }

  /** `tabs.find(tab => tab.key === active)?.component`: the screen of the
      first tab whose key is `active`, or nothing. */
  function ActiveComponent<C>(tabs: seq<Tab<C>>, active: string): (r: Option<C>)
    ensures r.None? <==> forall i :: 0 <= i < |tabs| ==> tabs[i].key != active
    ensures r.Some? ==> exists i :: (0 <= i < |tabs| && tabs[i].key == active
      && r.value == tabs[i].component
      && forall j :: 0 <= j < i ==> tabs[j].key != active)
    decreases |tabs|
  {
    if tabs == [] then None
    else if tabs[0].key == active then Some(tabs[0].component)
    else
      var rest := ActiveComponent(tabs[1..], active);
      assert forall i :: 1 <= i < |tabs| ==> tabs[i] == tabs[1..][i - 1];
      assert rest.Some? ==> exists i :: (0 <= i < |tabs[1..]| && tabs[1..][i].key == active
        && rest.value == tabs[1..][i].component
        && forall j :: 0 <= j < i ==> tabs[1..][j].key != active);
      rest
  }

  /** The first match is unique: the screen shown is that of the lowest
      index whose key is active. */
  lemma {:induction false} ActiveIsFirstMatch<C>(tabs: seq<Tab<C>>, active: string, i: nat)
    requires i < |tabs| && tabs[i].key == active
    requires forall j :: 0 <= j < i ==> tabs[j].key != active
    ensures ActiveComponent(tabs, active) == Some(tabs[i].component)
    decreases i
  {
    if i > 0 {
      assert tabs[1..][i - 1] == tabs[i];
      ActiveIsFirstMatch(tabs[1..], active, i - 1);
    }
  }

  /** Whether tab `t` is drawn underlined and bold. */
  predicate Highlighted<C>(t: Tab<C>, active: string) {
    t.key == active
  }

  /** The bar's state: the active key. */
  datatype NavState = NavState(active: string)

  function Start<C>(tabs: seq<Tab<C>>): NavState {
    NavState(InitialActive(tabs))
  }

  /** Pressing tab `i` makes its key the active one. */
  function Press<C>(s: NavState, tabs: seq<Tab<C>>, i: nat): (r: NavState)
    requires i < |tabs|
    ensures r.active == tabs[i].key
  {
    NavState(tabs[i].key)
  }

  /** When the bar first appears with at least one tab, the first tab's
      screen is shown and the first tab is highlighted. */
  lemma StartShowsFirst<C>(tabs: seq<Tab<C>>)
    requires tabs != []
    ensures ActiveComponent(tabs, Start(tabs).active) == Some(tabs[0].component)
    ensures Highlighted(tabs[0], Start(tabs).active)
  {
    ActiveIsFirstMatch(tabs, tabs[0].key, 0);
  }

  /** With distinct keys, after pressing tab `i` its screen is shown and it
      is the only tab highlighted, whatever was active before. */
  lemma PressShows<C>(s: NavState, tabs: seq<Tab<C>>, i: nat)
    requires i < |tabs|
    requires forall j, k :: 0 <= j < k < |tabs| ==> tabs[j].key != tabs[k].key
    ensures ActiveComponent(tabs, Press(s, tabs, i).active) == Some(tabs[i].component)
    ensures forall j :: 0 <= j < |tabs| ==> (Highlighted(tabs[j], Press(s, tabs, i).active) <==> j == i)
  {
    ActiveIsFirstMatch(tabs, tabs[i].key, i);
  }

  /** Without distinct keys a press shows the screen of the first tab that
      shares the pressed key, which need not be the pressed one. */
  lemma PressShowsFirstWithKey<C>(s: NavState, tabs: seq<Tab<C>>, i: nat)
    requires i < |tabs|
    ensures exists j :: (0 <= j <= i && tabs[j].key == tabs[i].key
      && ActiveComponent(tabs, Press(s, tabs, i).active) == Some(tabs[j].component))
  {
    var j :| 0 <= j < |tabs| && tabs[j].key == tabs[i].key
      && ActiveComponent(tabs, tabs[i].key) == Some(tabs[j].component)
      && forall k :: 0 <= k < j ==> tabs[k].key != tabs[i].key;
    assert j <= i;
  }
}

=== FILE: wrappers.dfy ===
/** The optional value used throughout the model: `undefined` in the
    original program, or a computation that has no answer. */
module Wrappers {

  datatype Option<+T> = None | Some(value: T) {

    /** The wrapped value, or `default` when there is none. */
    function GetOr(default: T): T {
      match this
      case Some(v) => v
      case None => default
    }
  }
}
